=== FILE: README.md ===
# Design-to-print-layout converter, modelled in Dafny

This project models the conversion engine of `converter-browser.js`, the
class `FigmaToEDocumentConverter`. The engine turns a decoded design
document into the element list of a print-form template. A design document
is a tree of frames, text nodes and shapes measured in pixels. Each print
element is a text box or an image box measured in millimetres on a chosen
paper size. The engine has two modes:

- **Tree mode.** The engine walks the node tree. It places each node with a
  frame-name layout heuristic and a flow layout for children.
- **Path mode.** This runs when the document carries a `textContent` array.
  The engine builds an index of node paths and looks each item up by path.
  It then anchors the text element with a substring heuristic on the path's
  leaf name.

Text boxes in both modes go through a collision-avoiding placement search.
Image and shape boxes do not.

The model is functional:

- The converter's instance state (emitted elements, placed text boxes and
  the debug log) is a `Trace` value. Each operation takes a `Trace` and
  returns a new one.
- Pixel and millimetre geometry is `real`.
- The two ways a conversion can throw are `Failure` results:
  - a paper type that is not one of the six names of the paper table;
  - a found text-content path that has no `/`, so its leaf name is
    undefined.
- The JavaScript defaults `paperType = 'A4'` and `scaleFactor = 1.0` apply
  to a missing argument. `Converter.ConvertWithDefaults` models them with
  `Option` parameters.

Modules follow the structure of the class:

| module | file | covers |
|---|---|---|
| `Strings` | strings.dfy | JavaScript `includes` / `split` / `join` / ASCII `toLowerCase` / `a \|\| b \|\| c` |
| `Numeric` | numeric.dfy | `Math.round`, two-decimal rounding, 32-bit wrap |
| `Hash` | hash.dfy | `simpleHash` |
| `Design` | design.dfy | the input node tree and text items |
| `Units` | units.dfy | paper table, `convertPosition`, `convertSize`, `convertFontSize` |
| `Styles` | styles.dfy | letter spacing, alignment, colours, `sanitizeText` |
| `NodeIndex` | nodeindex.dfy | `buildNodeMap`, `findNodeByPath` |
| `Anchor` | anchor.dfy | `calculatePathBasedPosition` |
| `Placer` | placer.dfy | `findNonOverlappingPosition`, `isOverlapping` |
| `Elements` | elements.dfy | node classifiers, text / image / shape element builders |
| `Converter` | converter.dfy | `processNode`, layout, `processWithTextContent`, `convertFigmaToEDocument`, `getConversionStats` |

Some behaviour of the code is modelled as written, even where a reader might
expect otherwise:

- **Path mode and an empty array.** Path mode is chosen for any
  `textContent` array, even an empty one, and then the tree is never walked
  (`Converter.EmptyTextContentIgnoresTree`).
- **Path anchors.** A path anchor is already in millimetres, but it is still
  passed through `convertPosition` as if it were pixels.
- **Image and shape boxes.**
  - They bypass the placement search and are not recorded as placed.
  - Their right and bottom edges come from converting the far corner with
    the canvas-fit scale, while their width and height use only the user
    scale. So their edges need not agree with their size
    (`Elements.ShapeGeometryCanDisagree`).
- **A dead anchor rule.** The anchor rule for leaves containing
  「新規契約及び追加契約の場合」 can never fire. Any such leaf also contains
  「新規契約」 and 「追加契約」, so the earlier section-title rule always
  matches first (`Anchor.SectionDescriptionRuleUnreachable`).

## Model

| member | source | states |
|---|---|---|
| Strings.Split | converter-browser.js:139 | `split('/')` yields at least one part; no part contains the separator; there is exactly one part iff the separator does not occur |
| Strings.JoinSplit | converter-browser.js:139 | joining the parts of a split with the same separator gives back the original string |
| Strings.SplitJoin | converter-browser.js:139 | splitting a join of separator-free parts (at least one) gives back the parts |
| Numeric.Round2 | converter-browser.js:766 | `Math.round(v * 100) / 100` is within 0.005 of `v` (down by less, up by at most) |
| Numeric.Round2NonNegative | converter-browser.js:766 | two-decimal rounding of a non-negative value is non-negative |
| Numeric.Round2Monotone | converter-browser.js:766 | two-decimal rounding preserves order |
| Numeric.Round2Hundredths | converter-browser.js:766 | a whole number of hundredths is left unchanged by two-decimal rounding |
| Numeric.Int32 | converter-browser.js:273-274 | the 32-bit signed view of an integer lies in [-2^31, 2^31) and differs from it by a multiple of 2^32 |
| Hash.Utf16Units | converter-browser.js:272 | `charCodeAt` reads one unit, the code point itself, below U+10000, and otherwise a high surrogate in [D800, DC00) then a low surrogate in [DC00, E000) |
| Hash.Utf16PairDecodes | converter-browser.js:272 | the surrogate pair of an astral character decodes back to its code point |
| Hash.CodeUnitsOfBmpText | converter-browser.js:271-272 | text inside the Basic Multilingual Plane has as many code units as characters, each equal to the character's code point |
| Hash.HashStepWraps | converter-browser.js:273-274 | `((h << 5) - h) + code` followed by `h & h` is `31*h + code` reduced to a signed 32-bit integer |
| Hash.HashStateStep | converter-browser.js:271-275 | one character moves the accumulator by one loop step per UTF-16 code unit of that character |
| Hash.HashStateReadsCodeUnits | converter-browser.js:269-277 | the hash accumulator of a string is the fold of the loop step over its UTF-16 code units, one step per unit |
| Hash.SimpleHash | converter-browser.js:269-277 | the hash is a natural number of at most 2^31, so every `% n` bucket is in [0, n) |
| Hash.HashIsWrappedPolynomial | converter-browser.js:269-277 | wrapping to 32 bits after every `31*h + code` step over the code units equals wrapping once the unbounded polynomial hash of the units |
| Hash.AstralCharHashesSurrogates | converter-browser.js:269-277 | U+1F600 is read as the units D83D, DE00 and hashes to 1772899, not to a function of its code point |
| Units.PaperSize | converter-browser.js:5-12 | exactly the six paper names have a size; every size is within 257-420 mm by 182-297 mm; A4 is 297 by 210 |
| Units.MakeCtxFits | converter-browser.js:760-762 | the position scale is positive; the scaled canvas fits in the paper less 20 mm on both axes, times the user scale, and fills it exactly on one axis; at a user scale of at most 1 every canvas point converts to at most the paper size less 10 mm (up to rounding) |
| Units.ConvertPosition | converter-browser.js:753-767 | the converted position is within 0.005 mm of the exact scaled value plus the 10 mm margin, and is at least 10 mm for a non-negative position and scale |
| Units.ConvertPositionMonotone | converter-browser.js:753-767 | under a non-negative scale, positions keep their order |
| Units.CapSize | converter-browser.js:777-786 | the two successive "too large" caps equal taking the minimum with the size cap |
| Units.ConvertSize | converter-browser.js:769-792 | a size is at least 8 mm and at most the larger of 8 and the rounded cap; an in-range size is only rounded |
| Units.ConvertSizeMonotone | converter-browser.js:769-792 | under a non-negative user scale, sizes keep their order |
| Units.ConvertFontSize | converter-browser.js:794-801 | a font size is in [6, 18] pt and an in-range one is only rounded |
| Units.ConvertFontSizeMonotone | converter-browser.js:794-801 | font sizes keep their order under a non-negative scale; the 12 px default is 9 pt at scale 1 |
| Styles.ConvertLetterSpacing | converter-browser.js:803-808 | a percentage spacing keeps its value, and a non-zero result only comes from a percentage spacing |
| Styles.ConvertVerticalAlign | converter-browser.js:810-817 | the result is top, middle or bottom; top iff TOP, bottom iff BOTTOM, middle for everything else |
| Styles.ConvertTextAlign | converter-browser.js:819-826 | the result is left, center or right; center iff CENTER, right iff RIGHT, left for everything else |
| Styles.NatToHex | converter-browser.js:835 | `toString(16)` gives lower-case hex digits, one digit exactly below 16 and two digits up to 255 |
| Styles.HexValueOfNatToHex | converter-browser.js:835 | reading the hex digits back gives the number |
| Styles.ChannelHexRoundTrip | converter-browser.js:831-835 | a channel in [0, 1] becomes two lower-case hex digits that read back as the channel scaled to 255 and rounded |
| Styles.ConvertColor | converter-browser.js:828-836 | no colour gives `#000000`; any colour gives a string starting with `#` of at least 7 characters |
| Styles.ConvertColorRoundTrip | converter-browser.js:828-836 | for channels in [0, 1] the string is `#` followed by six lower-case hex digits, and its three digit pairs read back as the rounded channel bytes |
| Styles.ReplaceCrLf | converter-browser.js:841 | replacing CRLF by LF shortens the text by exactly the number of CRLF pairs |
| Styles.ReplaceCrLfDropsCr | converter-browser.js:841 | replacing CRLF by LF is deleting every CR that is followed by LF and keeping every other character in order |
| Styles.ReplaceCr | converter-browser.js:841 | the result has no CR; every CR becomes LF and every other character is kept, position for position |
| Styles.SanitizeText | converter-browser.js:838-842 | the title is the first min(200, length) characters of the line-break-normalised text; it has no CR; short CR-free text is returned unchanged |
| Styles.ReplaceCrLfWithoutCr | converter-browser.js:841 | text without CR passes through both replacements unchanged |
| Styles.SanitizeTextIdempotent | converter-browser.js:838-842 | sanitising an already sanitised title changes nothing |
| Strings.ToLowerAscii | converter-browser.js:450 | lower-casing keeps the length, leaves no upper-case ASCII letter, keeps every other character and maps each upper-case letter to its lower-case partner |
| Strings.ToLowerAsciiIdempotent | converter-browser.js:450 | lower-casing twice is lower-casing once |
| Design.ReadNodeType | converter-browser.js:437-488 | reading a type tag gives a well-formed type whose name is the tag; it is an unnamed type exactly when the tag is none of the seven names the converter tests |
| Design.ReadPaintKind | converter-browser.js:515 | reading a paint tag gives a kind whose name is the tag; an image paint exactly for `IMAGE`; an unnamed kind exactly for tags other than `SOLID` and `IMAGE` |
| Strings.FirstNonEmpty | converter-browser.js:305 | `a \|\| b \|\| fallback` is the first non-empty of the three; it is empty only when all three are |
| NodeIndex.Get | converter-browser.js:143-144 | a lookup finds a node exactly when the key is present, and the node it finds is one stored under that key |
| NodeIndex.Set | converter-browser.js:123 | `set` on an existing key keeps the length and every key in place; on a new key it appends the entry |
| NodeIndex.SetGet | converter-browser.js:123 | after `set` the key maps to the new node and every other key keeps its node |
| NodeIndex.SetKeepsKeysUnique | converter-browser.js:123 | `set` keeps the keys of the index distinct |
| NodeIndex.BuildNodeMapIsSetAll | converter-browser.js:118-134 | the recursive index build equals setting, in order, the depth-first list of (ancestor path / name, node) entries of the named nodes |
| NodeIndex.SetAllGet | converter-browser.js:118-134 | after setting a list of entries, a key maps to the last entry with that key, or keeps its earlier value; keys stay distinct |
| NodeIndex.EntriesKeysEndWithName | converter-browser.js:120-122 | every indexed key ends with its node's name: it equals the name or ends with `/name` |
| NodeIndex.DropFirstSegmentMeaning | converter-browser.js:139 | the normalised path is the query with everything up to its first `/` removed, or empty when there is no `/` |
| NodeIndex.LeafNameMeaning | converter-browser.js:148 | the leaf name is the query's last `/`-separated segment: the whole query without `/`, else the text after its last `/` |
| NodeIndex.FirstLeafMatch | converter-browser.js:149-153 | the index of the first entry whose key equals the leaf or ends with `/leaf`; none exactly when no entry matches |
| NodeIndex.FindNodeByPathSpec | converter-browser.js:136-155 | an exact match on the normalised path wins; otherwise the first leaf match in insertion order; null only when nothing matches; any result is a stored node |
| NodeIndex.LookupFindsNamedNode | converter-browser.js:118-155 | on the index of a tree, a query whose leaf is the name of a named node of the tree always finds a node |
| Anchor.GroupRowY | converter-browser.js:216-238 | a row of the right-hand panel is in [120, 400] mm |
| Anchor.RawAnchor | converter-browser.js:171-254 | every rule's anchor lies in [40, 300] by [15, 575] mm before clamping |
| Anchor.PathBasedPosition | converter-browser.js:157-267 | fails exactly when the path has no `/`; otherwise the anchor lies in [20, 180] by [20, 280] mm |
| Anchor.PresenterWins | converter-browser.js:171-262 | a leaf containing 説明担当者 lands at (180, 20) whatever else it contains |
| Anchor.GroupFallbackRow | converter-browser.js:234-237 | an unmatched panel entry lands on one of the 15 rows 120 + 20k mm |
| Anchor.SectionDescriptionRuleUnreachable | converter-browser.js:199-203 | a leaf containing 新規契約及び追加契約の場合 never gets the x = 150 anchor of its own rule |
| Placer.FirstAccepted | converter-browser.js:617-653 | the first attempt at or after `k` whose candidate is clear of all placed boxes and inside the margins, with every earlier attempt rejected; none only when all later attempts are rejected |
| Placer.FindNonOverlappingPosition | converter-browser.js:612-658 | the result is clear of every placed box (edges may touch) and inside the 10 mm margins, or is the clamped fallback; if any of the 50 attempts is accepted, so is the result; only when none is does it fall back; an acceptable origin is kept |
| Placer.FindNonOverlappingPositionLoop | converter-browser.js:612-658 | the bounded loop carrying the current origin returns the same origin as the first-accepted characterization, which is accepted or the fallback |
| Placer.DuplicateMovesAway | converter-browser.js:618-630 | a box identical to one already placed is never kept at its requested origin unless that origin is also the fallback |
| Placer.FallbackInBounds | converter-browser.js:655-657 | when the box fits between the margins, the fallback lies inside them and moves the requested origin only along an axis where it did not fit |
| Placer.EmptyPageKeepsOrigin | converter-browser.js:618-630 | on an empty page an in-bounds origin is kept |
| Elements.GetImageHash | converter-browser.js:512-521 | the hash of the first image fill that has one; none exactly when no image fill has a hash |
| Elements.SkippedIsDrawable | converter-browser.js:487-510 | a skipped node is a drawable rectangle with an image hash and never a text node |
| Elements.PlaceText | converter-browser.js:279-358 | the box is the placer's result for the converted anchor and the converted size capped at the text limits (width 80 px and height 12 px by default); its right, bottom and centres agree with it; the recorded box is the element's; the box is clear of the placed boxes and inside the margins or is the fallback; font size is in [6, 18]; the title is the sanitised text; the style is `TextStyleOf` the node and title |
| Elements.TextStyleOf | converter-browser.js:303-348 | the font size is the converted `fontSize` with a 12 px default; the title is sanitised; the letter spacing is converted and there is no padding; the vertical alignment is converted; there is a horizontal alignment exactly when `textAlignHorizontal` is set, and it is the converted one; bold exactly when the weight is at least 600; a colour exactly when the first fill has one, and it is that colour converted; the background is the raw `backgroundColor` exactly when one is given; solid borders exactly when there are strokes; no border colour |
| Elements.ConvertImageOrShapeNode | converter-browser.js:670-751 | an image element exactly for a rectangle with an image fill, carrying the conversion's field name; otherwise a placeholder titled `[TYPE] name`; left/top are the converted origin, right/bottom the converted far corner, the centres the converted midpoints, width and height the converted size with 100 / 20 px defaults; sides at least 8 mm; a placeholder has font size 8, padding 2, no letter spacing, middle and centre alignment, no weight and no colour; its background is there exactly when the first fill has a colour, and is that colour converted; solid borders exactly when there are strokes; a border colour exactly when the first stroke has a colour, and it is that colour converted |
| Elements.ShapeSizeIgnoresPosition | converter-browser.js:676-689 | moving a node changes neither its element's size, kind nor style, and moving it right or down moves its edges right or down |
| Elements.ShapeGeometryCanDisagree | converter-browser.js:676-689 | on A4 with a 512 by 362 px canvas at scale 1, a 100 px shape's right edge lies over 50 mm from its left edge while its width is under 27 mm |
| Converter.AddText | converter-browser.js:602-609 | appends exactly the element `PlaceText` builds for the node, title and anchor, and exactly its box; the log is untouched; the box avoids the earlier placed boxes unless the search fell back |
| Converter.VisitNode | converter-browser.js:367-406 | a text node adds the element placed for `characters \|\| name \|\| 'テキスト'` at its layout origin, its box and one `TEXT` record; an unskipped drawable adds the image or shape element converted at its layout origin and one record of its type; a skipped image adds only a `SKIPPED_IMAGE` record with its hash; any other node changes nothing |
| Converter.CalculateLayout | converter-browser.js:435-481 | only frames move the origin; a header/top frame stays put; a narrow groups frame keeps its row and aligns its right edge with the canvas edge; a content frame, and only a content frame, is indented by 20 px on both axes; every other node stays put; a move along the row alone happens only for a narrow groups frame |
| Converter.LayoutIsRelative | converter-browser.js:435-481 | moving the parent origin moves the computed origin by the same amount |
| Converter.GroupsFrameMovesRight | converter-browser.js:460-465 | a narrow groups frame on a canvas of positive width is pushed past 30% of the canvas width from the parent |
| Converter.ProcessNode | converter-browser.js:361-433 | the walk only appends, keeps the element and placed counts in step with the log, and writes only tree-mode records |
| Converter.ProcessChildren | converter-browser.js:409-432 | the children walk only appends, stays balanced and writes only tree-mode records |
| Converter.VisitNodeDescribes | converter-browser.js:367-406 | visiting a text or drawable node writes exactly one record, named after the node, of the type its kind calls for; any other node writes none |
| Converter.ProcessNodeVisits | converter-browser.js:361-433 | the records a walk writes are, one for one and in order, the pre-order list of the text and drawable nodes of the tree, each with its name and its record type |
| Converter.ProcessChildrenVisits | converter-browser.js:409-432 | the children walk writes the records of the children's subtrees in sibling order |
| Converter.ProcessNodePlaces | converter-browser.js:361-433 | every text or drawable record a walk writes carries the origin the reference walk `VisitOrigins` gives its node: the layout of the node at the flow position its parent handed it |
| Converter.ProcessChildrenPlaces | converter-browser.js:409-432 | the children walk records each child subtree's nodes at the origins computed from the child's flow position, siblings in order |
| Converter.ChildrenFlow | converter-browser.js:409-432 | each child is laid out at the parent's origin plus its earlier siblings' widths and 10 px gaps (horizontal), or their heights and 5 px gaps (otherwise) |
| Converter.ProcessItem | converter-browser.js:81-115 | an item writes exactly one record for its path; a found node adds one text element and its box; a missing one gives `PATH_NOT_FOUND` and nothing else; it fails, with an undefined leaf, exactly when found with no `/` |
| Converter.ProcessItemAnchors | converter-browser.js:85-104 | a found node's record is `PATH_BASED_TEXT` carrying its path anchor, and its text element is the one placed for `text \|\| name \|\| 'テキスト'` at that anchor passed through `convertPosition` |
| Converter.ProcessItems | converter-browser.js:78-116 | one record per item; the run fails exactly when some item fails |
| Converter.ProcessItemsRecords | converter-browser.js:78-116 | the records appear in item order, each naming its item's path and saying "not found" exactly when its lookup fails |
| Converter.ProcessItemsElements | converter-browser.js:85-90 | path mode emits only text elements whose edges agree with their boxes |
| Converter.ProcessItemsBalanced | converter-browser.js:81-115 | path mode keeps one element and one placed box per `PATH_BASED_TEXT` record |
| Converter.Convert | converter-browser.js:15-72 | a paper outside the table fails with that error and nothing else does; tree mode always succeeds; path mode fails exactly when some item fails; the result carries the paper and as many elements as emitting records |
| Converter.ConvertWithDefaults | converter-browser.js:15 | with no paper argument the conversion is on A4 (297 by 210 mm), never fails for the paper, and succeeds in tree mode |
| Converter.GetConversionStats | converter-browser.js:844-863 | the total is the number of elements and the text plus image counts; the text and image counts are the elements of each printed type; the skipped, path-based and not-found counts are the log records of each type; the paper fields are the conversion's |
| Converter.KindsPartition | converter-browser.js:846-848 | every element is counted as text or as image |
| Converter.PathModeStats | converter-browser.js:844-863 | in path mode, path-based plus not-found counts equal the number of items, the path-based count equals the element and text counts, and nothing is an image or skipped |
| Converter.TreeModeStats | converter-browser.js:844-863 | in tree mode no path-based or not-found record is counted |
| Converter.TreeModeWalksTree | converter-browser.js:15-72 | a tree-mode conversion logs the pre-order list of the text and drawable nodes, each record at its node's origin in the reference walk from (0, 0) on the canvas-fit context of the root's size (1024 by 724 px by default) |
| Converter.EmptyTextContentIgnoresTree | converter-browser.js:60-66 | an empty `textContent` array yields an empty A4 document whatever the tree holds |
| Converter.SingleTextNode | converter-browser.js:361-385 | a childless text node alone yields one consistent text element, its placed box and one `TEXT` record |

## Left out

- Console logging, the `window` export, and the 50-character text preview
  and pixel-size fields of log records are not modelled. Records keep their
  type, name, path, position and image hash.
- The constant panel metadata is not modelled beyond the paper width and
  height. This covers header, footer, page-number, font, overprint and
  watermark options.
- The `field: image_${Date.now()}` value is a clock reading. It is a
  parameter of the conversion, shared by all its images.
- Arithmetic is exact real arithmetic, not IEEE-754 doubles. This applies
  to the 0.264583 and 0.75 scalings. `Math.round` is modelled as floor of
  x + 1/2.
- `calculateFrameLayout` on a frame with no name throws in the code. The
  model reads a missing name as "", so that frame gets the default layout.
- `toLowerCase` is modelled on ASCII letters only.
- Hash.SimpleHash: exact for every string a Dafny `string` can hold. A
  JavaScript string can also hold a lone surrogate, which no Dafny `char`
  can; such strings are not modelled.
- Styles.SanitizeText: `substring(0, 200)` counts UTF-16 code units, while
  the model counts characters. The two agree for text inside the Basic
  Multilingual Plane (`Hash.CodeUnitsOfBmpText`). For astral text the code
  keeps fewer characters, and a cut between the two halves of a surrogate
  pair leaves a lone surrogate, which a Dafny `char` cannot hold.
- Units.PaperSize: the paper table is a plain object, so an inherited
  property name such as `toString`, `constructor` or `__proto__` finds a
  value. Its width and height are then undefined and every coordinate is
  NaN, with nothing thrown. The model treats such a name like any other
  unknown name.
- Converter.Convert: the same caveat as for `Units.PaperSize` applies to
  its "unknown paper fails" clause.
- Inputs of the wrong JavaScript type are not modelled:
  - a text item whose path or text is not a string, which throws in the log
    record or in `split`;
  - a letter spacing with no value, which returns undefined;
  - colour channels that are not numbers;
  - a null child.
- Styles.ConvertVerticalAlign: does not model alignment names that hit an
  inherited property of the lookup object, such as `toString`. Those yield a
  function rather than "middle".
- Styles.ConvertTextAlign: same as above for the default "left".
- The canvas-fit scale is computed once per conversion by `Units.MakeCtx`
  and passed to `convertPosition`. The code recomputes it on every call
  from the same inputs, so the values agree.
- The `flowDirection` field of the layout record is not modelled. It is
  written but never read.
- The legacy converter, the UI script, the browser test automation and the
  file-system test harness of the repository are not part of this model.

=== FILE: anchor.dfy ===
/** The path-based anchor estimator (`calculatePathBasedPosition`): an
    ordered, first-match-wins list of substring rules on the leaf name of a
    text-content path, mapping it to a millimetre anchor of one known
    document layout, then clamped into the page content area. */
module Anchor {
  import opened Wrappers
  import opened Strings
  import opened Design
  import opened Hash

  const MIN_X: real := 20.0
  const MAX_X: real := 180.0
  const MIN_Y: real := 20.0
  const MAX_Y: real := 280.0

  /** The path segments after the design file name. */
  function PathSegments(path: string): seq<string> {
    Split(path, '/')[1..]
  }

  /** The anchor for one of the right-hand "Groups" panel entries: a row
      per known topic, otherwise a hash-chosen row of 20 mm among 15. */
  function GroupRowY(leaf: string): (y: real)
    ensures 120.0 <= y <= 400.0
  {
    if Contains(leaf, "クーリング・オフ") then 120.0
    else if Contains(leaf, "中途解除") then 160.0
    else if Contains(leaf, "支払方法") || Contains(leaf, "お支払い方法") then 200.0
    else if Contains(leaf, "変更契約") then 240.0
    else if Contains(leaf, "その他") then 280.0
    else if Contains(leaf, "第1回目") || Contains(leaf, "第2回目") then 320.0
    else if Contains(leaf, "振替") || Contains(leaf, "内訳") then 360.0
    else 120.0 + (SimpleHash(leaf) % 15) as real * 20.0
  }

  /** The anchor before clamping, by the first rule that matches. */
  function RawAnchor(segments: seq<string>, leaf: string, node: Node): (p: Point)
    ensures 40.0 <= p.x <= 300.0 && 15.0 <= p.y <= 575.0
  {
    // header
    if Contains(leaf, "説明担当者") || Contains(leaf, "TOMAS") || Contains(leaf, "トーマス") then Point(200.0, 15.0)
    // titles
    else if Contains(leaf, "指導料について") || Contains(leaf, "事前説明書") then Point(50.0, 50.0)
    else if Contains(leaf, "特定商取引法") then Point(50.0, 75.0)
    // contractor block
    else if Contains(leaf, "ご契約者") then Point(40.0, 100.0)
    else if Contains(leaf, "年") && Contains(leaf, "月") && Contains(leaf, "日") then Point(120.0, 100.0)
    // student table header
    else if Contains(leaf, "生徒カナ") then Point(40.0, 140.0)
    else if Contains(leaf, "生徒名") then Point(40.0, 170.0)
    else if Contains(leaf, "学年") then Point(200.0, 170.0)
    // section headers
    else if Contains(leaf, "新規契約") && Contains(leaf, "追加契約") then Point(40.0, 210.0)
    else if Contains(leaf, "新規契約及び追加契約の場合") then Point(150.0, 210.0)
    else if Contains(leaf, "受講内容") then Point(40.0, 240.0)
    else if Contains(leaf, "費用") then Point(40.0, 350.0)
    // right-hand explanation panel
    else if "Groups" in segments then Point(300.0, GroupRowY(leaf))
    // long text
    else if node.characters != "" || (node.height.Some? && node.height.value > 40.0) then
      Point(40.0, 400.0 + (SimpleHash(leaf) % 8) as real * 25.0)
    // everything else: a hash-chosen cell of a left-hand grid
    else
      var offset := SimpleHash(leaf) % 10;
      Point(40.0 + (offset % 3) as real * 15.0, 300.0 + offset as real * 20.0)
  }

  function Clamp(v: real, lo: real, hi: real): real {
    if v < lo then lo else if v > hi then hi else v
  }

  /** `calculatePathBasedPosition`: the clamped anchor of the path's leaf.
      It fails exactly when the path has no "/", because the source then
      reads the leaf of an empty segment list; otherwise the anchor lies in
      [20, 180] x [20, 280]. */
  function PathBasedPosition(path: string, node: Node): (r: Result<Point, ConversionError>)
    ensures r.Failure? <==> '/' !in path
    ensures r.Failure? ==> r.error == UndefinedLeaf(path)
    ensures r.Success? ==> MIN_X <= r.value.x <= MAX_X && MIN_Y <= r.value.y <= MAX_Y
  {
    var segments := PathSegments(path);
    if |segments| == 0 then Failure(UndefinedLeaf(path))
    else
      var raw := RawAnchor(segments, Last(segments), node);
      Success(Point(Clamp(raw.x, MIN_X, MAX_X), Clamp(raw.y, MIN_Y, MAX_Y)))
  }

  /** The header rule comes first: a leaf naming the presenter lands in the
      top-right corner of the content area whatever else it contains. */
  lemma PresenterWins(path: string, node: Node)
    requires '/' in path
    requires Contains(Last(PathSegments(path)), "説明担当者")
    ensures PathBasedPosition(path, node) == Success(Point(MAX_X, MIN_Y))
  {
  }

  /** An unmatched "Groups" member gets a hash-chosen row in [120, 400]
      before clamping, on the 20 mm grid. */
  lemma GroupFallbackRow(leaf: string)
    requires !Contains(leaf, "クーリング・オフ") && !Contains(leaf, "中途解除")
    requires !Contains(leaf, "支払方法") && !Contains(leaf, "お支払い方法")
    requires !Contains(leaf, "変更契約") && !Contains(leaf, "その他")
    requires !Contains(leaf, "第1回目") && !Contains(leaf, "第2回目")
    requires !Contains(leaf, "振替") && !Contains(leaf, "内訳")
    ensures var k := (GroupRowY(leaf) - 120.0) / 20.0;
      k == k.Floor as real && 0 <= k.Floor < 15
  {
    var k := SimpleHash(leaf) % 15;
    assert (GroupRowY(leaf) - 120.0) / 20.0 == k as real;
  }

  /** An occurrence at any offset is an occurrence. */
  lemma {:induction false} ContainsAt(s: string, t: string, i: nat)
    requires i <= |s| && StartsWith(s[i..], t)
    ensures Contains(s, t)
    decreases i
  {
    if i > 0 {
      assert s[1..][i - 1..] == s[i..];
      ContainsAt(s[1..], t, i - 1);
    }
  }

  lemma {:induction false} ContainsTransitive(s: string, t: string, u: string)
    requires Contains(s, t) && Contains(t, u)
    ensures Contains(s, u)
    decreases |s|
  {
    if StartsWith(s, t) {
      StartsWithContains(s, t, u);
    } else {
      ContainsTransitive(s[1..], t, u);
    }
  }

  lemma {:induction false} StartsWithContains(s: string, t: string, u: string)
    requires StartsWith(s, t) && Contains(t, u)
    ensures Contains(s, u)
    decreases |t|
  {
    if StartsWith(t, u) {
      assert s[..|u|] == t[..|u|];
    } else {
      assert s[1..][..|t| - 1] == t[1..];
      StartsWithContains(s[1..], t[1..], u);
    }
  }

  /** The phrase of the section-description rule contains both words of
      the section-title rule. */
  lemma DescriptionPhraseHasBothWords()
    ensures Contains("新規契約及び追加契約の場合", "新規契約")
    ensures Contains("新規契約及び追加契約の場合", "追加契約")
  {
    var phrase := "新規契約及び追加契約の場合";
    assert StartsWith(phrase, "新規契約");
    assert phrase[6..][..4] == "追加契約";
    ContainsAt(phrase, "追加契約", 6);
  }

  /** A leaf with both section words never reaches the x = 150 rule. */
  lemma SectionTitleShadows(segments: seq<string>, leaf: string, node: Node)
    requires Contains(leaf, "新規契約") && Contains(leaf, "追加契約")
    ensures RawAnchor(segments, leaf, node).x != 150.0
  {
  }

  /** The rule for "新規契約及び追加契約の場合" can never fire: such a leaf
      also contains both "新規契約" and "追加契約", so the section-title rule
      before it always wins. */
  lemma SectionDescriptionRuleUnreachable(segments: seq<string>, leaf: string, node: Node)
    requires Contains(leaf, "新規契約及び追加契約の場合")
    ensures RawAnchor(segments, leaf, node).x != 150.0
  {
    var phrase := "新規契約及び追加契約の場合";
    DescriptionPhraseHasBothWords();
    ContainsTransitive(leaf, phrase, "新規契約");
    ContainsTransitive(leaf, phrase, "追加契約");
    SectionTitleShadows(segments, leaf, node);
  }
}

=== FILE: converter.dfy ===
/** The conversion driver (`FigmaToEDocumentConverter`): the tree walk with
    its frame-name layout heuristics, the text-content path mode, the debug
    log, and the conversion statistics. The converter's mutable instance
    state (emitted elements, placed rectangles, debug log) is threaded
    explicitly as a `Trace`. */
module Converter {
  import opened Wrappers
  import opened Strings
  import opened Numeric
  import opened Design
  import opened Units
  import opened NodeIndex
  import opened Anchor
  import opened Placer
  import opened Elements

  /** One debug-log entry. */
  datatype LogRecord =
    | TextRecord(name: string, position: Point)
    | ShapeRecord(nodeType: NodeType, name: string, position: Point)
    | SkippedImage(name: string, imageHash: string)
    | PathBasedText(name: string, path: string, position: Point)
    | PathNotFound(name: string, path: string)
  {
    /** The record's `type` field. */
    function Type(): string {
      match this
      case TextRecord(_, _) => "TEXT"
      case ShapeRecord(t, _, _) => t.Name()
      case SkippedImage(_, _) => "SKIPPED_IMAGE"
      case PathBasedText(_, _, _) => "PATH_BASED_TEXT"
      case PathNotFound(_, _) => "PATH_NOT_FOUND"
    }
  }

  /** Classes of log records that are counted. */
  datatype RecordClass = Emitting | Placing | OfType(tag: string)

  predicate InClass(rec: LogRecord, c: RecordClass) {
    match c
    case Emitting => rec.TextRecord? || rec.ShapeRecord? || rec.PathBasedText?
    case Placing => rec.TextRecord? || rec.PathBasedText?
    case OfType(tag) => rec.Type() == tag
  }

  function CountWhere(log: seq<LogRecord>, c: RecordClass): (n: nat)
    ensures n <= |log|
    decreases |log|
  {
    if |log| == 0 then 0
    else CountWhere(log[..|log| - 1], c) + (if InClass(log[|log| - 1], c) then 1 else 0)
  }

  lemma CountWhereAppend(log: seq<LogRecord>, rec: LogRecord, c: RecordClass)
    ensures CountWhere(log + [rec], c) == CountWhere(log, c) + (if InClass(rec, c) then 1 else 0)
  {
    assert (log + [rec])[..|log|] == log;
  }

  /** The number of elements of printed type `kind`. */
  function KindCount(elements: seq<PrintElement>, kind: string): (n: nat)
    ensures n <= |elements|
    decreases |elements|
  {
    if |elements| == 0 then 0
    else KindCount(elements[..|elements| - 1], kind) + (if elements[|elements| - 1].Kind() == kind then 1 else 0)
  }

  /** The converter state a walk threads: emitted elements, placed text
      boxes, and the debug log. */
  datatype Trace = Trace(elements: seq<PrintElement>, placed: seq<Rect>, log: seq<LogRecord>)

  const EmptyTrace := Trace([], [], [])

  /** The state only grows. */
  predicate Extends(t: Trace, r: Trace) {
    t.elements <= r.elements && t.placed <= r.placed && t.log <= r.log
  }

  /** Every emitted element has exactly one log record that says so, and
      every placed box belongs to a logged text element. */
  predicate Balanced(t: Trace) {
    |t.elements| == CountWhere(t.log, Emitting) && |t.placed| == CountWhere(t.log, Placing)
  }

  /** The rectangle a text element occupies. */
  function BoxOf(g: Geometry): Rect {
    Rect(g.left, g.top, g.width, g.height)
  }

  /** Emits one text element for `node` at design anchor (x, y) and records
      its box as placed; the log is untouched. The new box is clear of every
      box placed before it and inside the margins, unless the search fell
      back. */
  function AddText(ctx: Ctx, t: Trace, node: Node, title: string, x: real, y: real): (r: Trace)
    ensures r.log == t.log
    ensures |r.elements| == |t.elements| + 1 && r.elements[..|t.elements|] == t.elements
    ensures Last(r.elements) == PlaceText(ctx, t.placed, node, title, x, y).0
    ensures r.placed == t.placed + [BoxOf(Last(r.elements).geometry)]
    ensures Last(r.elements).TextElement? && Consistent(Last(r.elements).geometry)
    ensures var g := Last(r.elements).geometry;
      Accepted(ctx.paper, t.placed, Point(g.left, g.top), g.width, g.height) ||
      Point(g.left, g.top) == Fallback(ctx.paper,
        ConvertPosition(ctx.positionScale, x), ConvertPosition(ctx.positionScale, y), g.width, g.height)
  {
    var (e, rect) := PlaceText(ctx, t.placed, node, title, x, y);
    assert (t.elements + [e])[..|t.elements|] == t.elements;
    Trace(t.elements + [e], t.placed + [rect], t.log)
  }

  /** The `node.name || 'Unnamed'` of log records. */
  function LogName(node: Node): string {
    FirstNonEmpty(node.name, "", "Unnamed")
  }

  /** The node itself, without its children, as `processNode` treats it: a
      text node becomes a placed text element, a drawable node that is not
      skipped becomes an image or shape element, a skipped image is only
      logged, and any other node leaves no trace. */
  function VisitNode(ctx: Ctx, t: Trace, node: Node, at: Point): (r: Trace)
    ensures Extends(t, r) && |r.log| <= |t.log| + 1
    ensures Balanced(t) ==> Balanced(r)
    ensures IsTextNode(node) ==>
      |r.elements| == |t.elements| + 1 && |r.placed| == |t.placed| + 1 &&
      Last(r.elements).TextElement? && Consistent(Last(r.elements).geometry) &&
      Last(r.placed) == BoxOf(Last(r.elements).geometry) &&
      r.log == t.log + [TextRecord(LogName(node), at)]
    ensures IsTextNode(node) ==>
      Last(r.elements) == PlaceText(ctx, t.placed, node, TextTitle(node), at.x, at.y).0
    ensures !IsTextNode(node) && IsImageOrShapeNode(node) && !ShouldSkipImageNode(node) ==>
      |r.elements| == |t.elements| + 1 && r.placed == t.placed &&
      Last(r.elements) == ConvertImageOrShapeNode(ctx, node, at.x, at.y) &&
      r.log == t.log + [ShapeRecord(node.nodeType, LogName(node), at)]
    ensures ShouldSkipImageNode(node) ==>
      r.elements == t.elements && r.placed == t.placed &&
      r.log == t.log + [SkippedImage(LogName(node), GetImageHash(node.fills).value)]
    ensures !IsTextNode(node) && !IsImageOrShapeNode(node) ==> r == t
  {
    if IsTextNode(node) then VisitText(ctx, t, node, at)
    else if IsImageOrShapeNode(node) && !ShouldSkipImageNode(node) then VisitShape(ctx, t, node, at)
    else if ShouldSkipImageNode(node) then VisitSkipped(t, node)
    else t
  }

  /** The title of a tree-mode text element: `node.characters || node.name
      || 'テキスト'`. */
  function TextTitle(node: Node): string {
    FirstNonEmpty(node.characters, node.name, "テキスト")
  }

  /** A text node: one placed text element titled by its characters and
      one `TEXT` record at its layout origin. */
  function VisitText(ctx: Ctx, t: Trace, node: Node, at: Point): (r: Trace)
    ensures Extends(t, r)
    ensures Balanced(t) ==> Balanced(r)
    ensures |r.elements| == |t.elements| + 1 && |r.placed| == |t.placed| + 1
    ensures Last(r.elements) == PlaceText(ctx, t.placed, node, TextTitle(node), at.x, at.y).0
    ensures Last(r.elements).TextElement? && Consistent(Last(r.elements).geometry)
    ensures Last(r.placed) == BoxOf(Last(r.elements).geometry)
    ensures r.log == t.log + [TextRecord(LogName(node), at)]
  {
    var t1 := AddText(ctx, t, node, TextTitle(node), at.x, at.y);
    var rec := TextRecord(LogName(node), at);
    CountWhereAppend(t1.log, rec, Emitting);
    CountWhereAppend(t1.log, rec, Placing);
    t1.(log := t1.log + [rec])
  }

  /** An image or shape node: one unplaced element and one record of the
      node's type at its layout origin. */
  function VisitShape(ctx: Ctx, t: Trace, node: Node, at: Point): (r: Trace)
    ensures Extends(t, r)
    ensures Balanced(t) ==> Balanced(r)
    ensures |r.elements| == |t.elements| + 1 && r.placed == t.placed
    ensures Last(r.elements) == ConvertImageOrShapeNode(ctx, node, at.x, at.y)
    ensures r.log == t.log + [ShapeRecord(node.nodeType, LogName(node), at)]
  {
    var e := ConvertImageOrShapeNode(ctx, node, at.x, at.y);
    var rec := ShapeRecord(node.nodeType, LogName(node), at);
    CountWhereAppend(t.log, rec, Emitting);
    CountWhereAppend(t.log, rec, Placing);
    Trace(t.elements + [e], t.placed, t.log + [rec])
  }

  /** A skipped image: only a `SKIPPED_IMAGE` record with its image hash. */
  function VisitSkipped(t: Trace, node: Node): (r: Trace)
    ensures Extends(t, r)
    ensures Balanced(t) ==> Balanced(r)
    ensures r.elements == t.elements && r.placed == t.placed
    ensures |r.log| == |t.log| + 1 && Last(r.log).SkippedImage? && Last(r.log).name == LogName(node)
    ensures GetImageHash(node.fills).Some? ==> Last(r.log).imageHash == GetImageHash(node.fills).value
  {
    var hash := match GetImageHash(node.fills) case Some(h) => h case None => "";
    var rec := SkippedImage(LogName(node), hash);
    CountWhereAppend(t.log, rec, Emitting);
    CountWhereAppend(t.log, rec, Placing);
    t.(log := t.log + [rec])
  }

  /** A frame whose lower-cased name mentions "header" or "top". */
  predicate IsHeaderFrame(node: Node) {
    var name := ToLowerAscii(node.name);
    node.nodeType == Frame && (Contains(name, "header") || Contains(name, "top"))
  }

  /** A frame that is not a header, whose name mentions "groups" and whose
      width is known and below 70% of the canvas width. */
  predicate IsNarrowGroupsFrame(ctx: Ctx, node: Node) {
    node.nodeType == Frame && !IsHeaderFrame(node) && Contains(ToLowerAscii(node.name), "groups") &&
    node.width.Some? && node.width.value < ctx.canvasWidth * 0.7
  }

  /** A frame that is neither of the above and whose name mentions "text"
      or "content". */
  predicate IsContentFrame(ctx: Ctx, node: Node) {
    var name := ToLowerAscii(node.name);
    node.nodeType == Frame && !IsHeaderFrame(node) && !IsNarrowGroupsFrame(ctx, node) &&
    (Contains(name, "text") || Contains(name, "content"))
  }

  /** `calculateLayout` and `calculateFrameLayout`: only frames move the
      origin, by the first frame-name rule (ASCII case-insensitive) that
      applies. A "header"/"top" frame stays put; a "groups" frame narrower
      than 70% of the canvas is pushed right so that it ends at the canvas
      edge; a "text"/"content" frame is indented by 20 px on both axes;
      every other node stays at its parent's origin. */
  function CalculateLayout(ctx: Ctx, node: Node, parent: Point): (r: Point)
    ensures node.nodeType != Frame || IsHeaderFrame(node) ==> r == parent
    ensures IsNarrowGroupsFrame(ctx, node) ==>
      r.y == parent.y && r.x + node.width.value == parent.x + ctx.canvasWidth
    ensures IsContentFrame(ctx, node) <==> r == Point(parent.x + 20.0, parent.y + 20.0)
    ensures !IsNarrowGroupsFrame(ctx, node) && !IsContentFrame(ctx, node) ==> r == parent
    ensures r.y == parent.y && r.x != parent.x ==> IsNarrowGroupsFrame(ctx, node)
  {
    if node.nodeType == Frame then FrameLayout(ctx, node, parent) else parent
  }

  function FrameLayout(ctx: Ctx, frame: Node, parent: Point): Point {
    var name := ToLowerAscii(frame.name);
    if Contains(name, "header") || Contains(name, "top") then parent
    else if Contains(name, "groups") && frame.width.Some? && frame.width.value < ctx.canvasWidth * 0.7 then
      Point(parent.x + (ctx.canvasWidth - frame.width.value), parent.y)
    else if Contains(name, "text") || Contains(name, "content") then
      Point(parent.x + 20.0, parent.y + 20.0)
    else parent
  }

  /** Layout is relative to the parent: shifting the parent's origin
      shifts the node's origin by the same amount. */
  lemma LayoutIsRelative(ctx: Ctx, node: Node, parent: Point, dx: real, dy: real)
    ensures var r1 := CalculateLayout(ctx, node, parent);
      var r2 := CalculateLayout(ctx, node, Point(parent.x + dx, parent.y + dy));
      r2 == Point(r1.x + dx, r1.y + dy)
  {
  }

  /** A narrow "groups" frame on a canvas of positive width always moves
      right, by more than 30% of the canvas. */
  lemma GroupsFrameMovesRight(ctx: Ctx, node: Node, parent: Point)
    requires ctx.canvasWidth > 0.0
    requires IsNarrowGroupsFrame(ctx, node)
    ensures CalculateLayout(ctx, node, parent).x > parent.x + ctx.canvasWidth * 0.3
  {
  }

  /** The origin of the next sibling: a horizontal-layout parent lines its
      children up left to right with 10 px gaps, any other parent stacks
      them top to bottom with 5 px gaps. */
  function NextOrigin(parent: Node, child: Node, at: Point): Point {
    if parent.layoutMode == Horizontal then Point(at.x + OrElse(child.width, 0.0) + 10.0, at.y)
    else Point(at.x, at.y + OrElse(child.height, 0.0) + 5.0)
  }

  /** A log record the tree walk can write. */
  predicate TreeRecord(rec: LogRecord) {
    rec.TextRecord? || rec.SkippedImage? ||
    (rec.ShapeRecord? && rec.nodeType in {Rectangle, Ellipse, Polygon, Vector, ImageNode})
  }

  /** `processNode`: visit the node at its layout origin, then its children
      in order at their flow origins. The state only grows, stays balanced,
      and gains only tree records. */
  function ProcessNode(ctx: Ctx, t: Trace, node: Node, parent: Point): (r: Trace)
    ensures Extends(t, r)
    ensures Balanced(t) ==> Balanced(r)
    ensures forall i :: |t.log| <= i < |r.log| ==> TreeRecord(r.log[i])
    decreases node, 1
  {
    var at := CalculateLayout(ctx, node, parent);
    var t1 := VisitNode(ctx, t, node, at);
    ProcessChildren(ctx, t1, node, 0, at)
  }

  function ProcessChildren(ctx: Ctx, t: Trace, parent: Node, i: nat, at: Point): (r: Trace)
    ensures Extends(t, r)
    ensures Balanced(t) ==> Balanced(r)
    ensures forall k :: |t.log| <= k < |r.log| ==> TreeRecord(r.log[k])
    decreases parent, 0, |parent.children| - i
  {
    if i >= |parent.children| then t
    else
      var child := parent.children[i];
      var t1 := ProcessNode(ctx, t, child, at);
      ProcessChildren(ctx, t1, parent, i + 1, NextOrigin(parent, child, at))
  }

  // ---------------------------------------------------------------------
  // What the tree walk visits

  /** A node that leaves a log record when visited: a text node or a
      drawable (skipped or not). */
  predicate Visits(node: Node) {
    IsTextNode(node) || IsImageOrShapeNode(node)
  }

  /** The nodes of the tree that leave a record, in pre-order: the node
      itself before its children, children in order. */
  function VisitOrder(node: Node): seq<Node>
    decreases node, 1
  {
    (if Visits(node) then [node] else []) + VisitOrderChildren(node, 0)
  }

  function VisitOrderChildren(parent: Node, i: nat): seq<Node>
    decreases parent, 0, |parent.children| - i
  {
    if i >= |parent.children| then [] else VisitOrder(parent.children[i]) + VisitOrderChildren(parent, i + 1)
  }

  /** The `type` of the record a visited node leaves. */
  function RecordType(node: Node): string {
    if IsTextNode(node) then "TEXT"
    else if ShouldSkipImageNode(node) then "SKIPPED_IMAGE"
    else node.nodeType.Name()
  }

  /** `log` is one record per node of `nodes`, in order, each carrying the
      node's log name and record type. */
  predicate LogDescribes(log: seq<LogRecord>, nodes: seq<Node>) {
    |log| == |nodes| &&
    forall k :: 0 <= k < |log| ==> log[k].name == LogName(nodes[k]) && log[k].Type() == RecordType(nodes[k])
  }

  lemma LogDescribesAppend(a: seq<LogRecord>, na: seq<Node>, b: seq<LogRecord>, nb: seq<Node>)
    requires LogDescribes(a, na) && LogDescribes(b, nb)
    ensures LogDescribes(a + b, na + nb)
  {
    forall k | 0 <= k < |a + b|
      ensures (a + b)[k].name == LogName((na + nb)[k]) && (a + b)[k].Type() == RecordType((na + nb)[k])
    {
      if k < |a| {
        assert (a + b)[k] == a[k] && (na + nb)[k] == na[k];
      } else {
        assert (a + b)[k] == b[k - |a|] && (na + nb)[k] == nb[k - |a|];
      }
    }
  }

  lemma SuffixSplit(x: seq<LogRecord>, y: seq<LogRecord>, z: seq<LogRecord>)
    requires x <= y && y <= z
    ensures z[|x|..] == y[|x|..] + z[|y|..]
  {
    assert y == z[..|y|];
  }

  /** Visiting one node logs one record describing it if it is a text node
      or a drawable, and nothing otherwise. */
  lemma VisitNodeDescribes(ctx: Ctx, t: Trace, node: Node, at: Point)
    ensures var r := VisitNode(ctx, t, node, at);
      t.log <= r.log && LogDescribes(r.log[|t.log|..], if Visits(node) then [node] else [])
  {
    var r := VisitNode(ctx, t, node, at);
    var rec: LogRecord;
    if IsTextNode(node) {
      rec := TextRecord(LogName(node), at);
    } else if IsImageOrShapeNode(node) && !ShouldSkipImageNode(node) {
      rec := ShapeRecord(node.nodeType, LogName(node), at);
    } else if ShouldSkipImageNode(node) {
      SkippedIsDrawable(node);
      rec := SkippedImage(LogName(node), GetImageHash(node.fills).value);
    } else {
      assert r.log[|t.log|..] == [];
      return;
    }
    assert r.log == t.log + [rec];
    assert r.log[|t.log|..] == [rec];
  }

  /** `processNode` logs exactly one record for each text node and each
      drawable of the tree, in pre-order, and nothing else. */
  lemma {:induction false} ProcessNodeVisits(ctx: Ctx, t: Trace, node: Node, parent: Point)
    ensures var r := ProcessNode(ctx, t, node, parent);
      LogDescribes(r.log[|t.log|..], VisitOrder(node))
    decreases node, 1
  {
    var at := CalculateLayout(ctx, node, parent);
    var t1 := VisitNode(ctx, t, node, at);
    VisitNodeDescribes(ctx, t, node, at);
    ProcessChildrenVisits(ctx, t1, node, 0, at);
    var r := ProcessNode(ctx, t, node, parent);
    assert r == ProcessChildren(ctx, t1, node, 0, at);
    SuffixSplit(t.log, t1.log, r.log);
    LogDescribesAppend(t1.log[|t.log|..], if Visits(node) then [node] else [],
      r.log[|t1.log|..], VisitOrderChildren(node, 0));
  }

  lemma {:induction false} ProcessChildrenVisits(ctx: Ctx, t: Trace, parent: Node, i: nat, at: Point)
    ensures var r := ProcessChildren(ctx, t, parent, i, at);
      LogDescribes(r.log[|t.log|..], VisitOrderChildren(parent, i))
    decreases parent, 0, |parent.children| - i
  {
    var r := ProcessChildren(ctx, t, parent, i, at);
    if i >= |parent.children| {
      assert r.log[|t.log|..] == [];
    } else {
      var child := parent.children[i];
      var t1 := ProcessNode(ctx, t, child, at);
      ProcessNodeVisits(ctx, t, child, at);
      ProcessChildrenVisits(ctx, t1, parent, i + 1, NextOrigin(parent, child, at));
      assert r == ProcessChildren(ctx, t1, parent, i + 1, NextOrigin(parent, child, at));
      SuffixSplit(t.log, t1.log, r.log);
      LogDescribesAppend(t1.log[|t.log|..], VisitOrder(child),
        r.log[|t1.log|..], VisitOrderChildren(parent, i + 1));
    }
  }

  /** Where the walk lays out each node of `VisitOrder(node)`, computed
      independently of the walk: the node's own layout origin, then each
      child at its closed-form flow origin from that layout. */
  function VisitOrigins(ctx: Ctx, node: Node, parent: Point): seq<Point>
    decreases node, 1
  {
    var at := CalculateLayout(ctx, node, parent);
    (if Visits(node) then [at] else []) + VisitOriginsChildren(ctx, node, at, 0)
  }

  function VisitOriginsChildren(ctx: Ctx, parent: Node, at: Point, i: nat): seq<Point>
    decreases parent, 0, |parent.children| - i
  {
    if i >= |parent.children| then []
    else VisitOrigins(ctx, parent.children[i], ChildOrigin(parent, at, i)) + VisitOriginsChildren(ctx, parent, at, i + 1)
  }

  /** `log` is one record per origin of `origins`, in order, and every
      text or shape record carries its origin as its position. */
  predicate LogPlaces(log: seq<LogRecord>, origins: seq<Point>) {
    |log| == |origins| &&
    forall k :: 0 <= k < |log| ==> (log[k].TextRecord? || log[k].ShapeRecord?) ==> log[k].position == origins[k]
  }

  lemma LogPlacesAppend(a: seq<LogRecord>, oa: seq<Point>, b: seq<LogRecord>, ob: seq<Point>)
    requires LogPlaces(a, oa) && LogPlaces(b, ob)
    ensures LogPlaces(a + b, oa + ob)
  {
    forall k | 0 <= k < |a + b| && ((a + b)[k].TextRecord? || (a + b)[k].ShapeRecord?)
      ensures (a + b)[k].position == (oa + ob)[k]
    {
      if k >= |a| {
        assert (a + b)[k] == b[k - |a|] && (oa + ob)[k] == ob[k - |a|];
      }
    }
  }

  /** Two consecutive stretches of a growing log, placed by `oa` and `ob`,
      make one stretch placed by `oa + ob`. */
  lemma LogPlacesSplit(x: seq<LogRecord>, y: seq<LogRecord>, z: seq<LogRecord>, oa: seq<Point>, ob: seq<Point>)
    requires x <= y && y <= z
    requires LogPlaces(y[|x|..], oa) && LogPlaces(z[|y|..], ob)
    ensures LogPlaces(z[|x|..], oa + ob)
  {
    SuffixSplit(x, y, z);
    LogPlacesAppend(y[|x|..], oa, z[|y|..], ob);
  }

  /** Visiting one node at `at` logs, if anything, one record placed at
      `at`. */
  lemma VisitNodePlaces(ctx: Ctx, t: Trace, node: Node, at: Point)
    ensures var r := VisitNode(ctx, t, node, at);
      t.log <= r.log && LogPlaces(r.log[|t.log|..], if Visits(node) then [at] else [])
  {
    VisitNodeDescribes(ctx, t, node, at);
  }

  /** `processNode` logs each text and drawable node of the tree at the
      origin the layout heuristics and the sibling flow give it. */
  lemma {:induction false} ProcessNodePlaces(ctx: Ctx, t: Trace, node: Node, parent: Point)
    ensures var r := ProcessNode(ctx, t, node, parent);
      LogPlaces(r.log[|t.log|..], VisitOrigins(ctx, node, parent))
    decreases node, 1
  {
    var at := CalculateLayout(ctx, node, parent);
    var t1 := VisitNode(ctx, t, node, at);
    VisitNodePlaces(ctx, t, node, at);
    assert ChildOrigin(node, at, 0) == at;
    ProcessChildrenPlaces(ctx, t1, node, at, 0, at);
    var r := ProcessNode(ctx, t, node, parent);
    assert r == ProcessChildren(ctx, t1, node, 0, at);
    LogPlacesSplit(t.log, t1.log, r.log, if Visits(node) then [at] else [], VisitOriginsChildren(ctx, node, at, 0));
  }

  lemma {:induction false} ProcessChildrenPlaces(ctx: Ctx, t: Trace, parent: Node, at: Point, i: nat, o: Point)
    requires i <= |parent.children| && o == ChildOrigin(parent, at, i)
    ensures var r := ProcessChildren(ctx, t, parent, i, o);
      LogPlaces(r.log[|t.log|..], VisitOriginsChildren(ctx, parent, at, i))
    decreases parent, 0, |parent.children| - i
  {
    if i == |parent.children| {
      var r := ProcessChildren(ctx, t, parent, i, o);
      assert r.log[|t.log|..] == [];
    } else {
      var child := parent.children[i];
      var t1 := ProcessNode(ctx, t, child, o);
      ProcessNodePlaces(ctx, t, child, o);
      NextOriginStep(parent, at, i);
      ProcessChildrenPlaces(ctx, t1, parent, at, i + 1, NextOrigin(parent, child, o));
      var r := ProcessChildren(ctx, t1, parent, i + 1, NextOrigin(parent, child, o));
      assert ProcessChildren(ctx, t, parent, i, o) == r;
      LogPlacesSplit(t.log, t1.log, r.log, VisitOrigins(ctx, child, o), VisitOriginsChildren(ctx, parent, at, i + 1));
    }
  }

  /** The sum of the children's flow sizes before child `i` (width in a
      horizontal layout, height otherwise), a missing size counting 0. */
  function FlowExtent(parent: Node, i: nat): real
    requires i <= |parent.children|
  {
    if i == 0 then 0.0
    else
      var c := parent.children[i - 1];
      FlowExtent(parent, i - 1) +
        (if parent.layoutMode == Horizontal then OrElse(c.width, 0.0) else OrElse(c.height, 0.0))
  }

  /** Where child `i` starts, in closed form: the sizes of its earlier
      siblings plus one gap per sibling, along the flow axis only. */
  function ChildOrigin(parent: Node, at: Point, i: nat): Point
    requires i <= |parent.children|
  {
    if parent.layoutMode == Horizontal then Point(at.x + FlowExtent(parent, i) + 10.0 * i as real, at.y)
    else Point(at.x, at.y + FlowExtent(parent, i) + 5.0 * i as real)
  }

  /** The children walk with every child placed at its closed-form origin. */
  function ProcessChildrenAt(ctx: Ctx, t: Trace, parent: Node, at: Point, i: nat): Trace
    requires i <= |parent.children|
    decreases |parent.children| - i
  {
    if i == |parent.children| then t
    else ProcessChildrenAt(ctx, ProcessNode(ctx, t, parent.children[i], ChildOrigin(parent, at, i)), parent, at, i + 1)
  }

  /** The running origin `processNode` threads from sibling to sibling is
      the closed-form one: child `i` is laid out at its earlier siblings'
      total flow size plus `i` gaps from the parent's origin. */
  lemma {:induction false} ChildrenFlow(ctx: Ctx, t: Trace, parent: Node, at: Point, i: nat)
    requires i <= |parent.children|
    ensures ProcessChildren(ctx, t, parent, i, ChildOrigin(parent, at, i)) == ProcessChildrenAt(ctx, t, parent, at, i)
    decreases |parent.children| - i
  {
    if i < |parent.children| {
      var child := parent.children[i];
      NextOriginStep(parent, at, i);
      ChildrenFlow(ctx, ProcessNode(ctx, t, child, ChildOrigin(parent, at, i)), parent, at, i + 1);
    }
  }

  lemma NextOriginStep(parent: Node, at: Point, i: nat)
    requires i < |parent.children|
    ensures NextOrigin(parent, parent.children[i], ChildOrigin(parent, at, i)) == ChildOrigin(parent, at, i + 1)
  {
  }

  /** The title of a path-mode text element: `textItem.text ||
      textItem.name || 'テキスト'`. */
  function ItemTitle(item: TextItem): string {
    FirstNonEmpty(item.text, item.name, "テキスト")
  }

  /** Fails when the item's path is found but has no "/". */
  predicate ItemFails(idx: Index, item: TextItem) {
    FindNodeByPath(item.path, idx).Some? && '/' !in item.path
  }

  /** One `textContent` item in path mode: a found node becomes one text
      element at its path anchor (itself passed through `convertPosition`)
      and one `PATH_BASED_TEXT` record; a missing one only a
      `PATH_NOT_FOUND` record. */
  function ProcessItem(ctx: Ctx, idx: Index, t: Trace, item: TextItem): (r: Result<Trace, ConversionError>)
    ensures r.Failure? <==> ItemFails(idx, item)
    ensures r.Failure? ==> r.error == UndefinedLeaf(item.path)
    ensures r.Success? ==> Extends(t, r.value) && |r.value.log| == |t.log| + 1
    ensures r.Success? ==> ItemRecord(idx, item, Last(r.value.log))
    ensures r.Success? && FindNodeByPath(item.path, idx).None? ==>
      r.value.elements == t.elements && r.value.placed == t.placed
    ensures r.Success? && FindNodeByPath(item.path, idx).Some? ==>
      Last(r.value.log).PathBasedText? &&
      |r.value.elements| == |t.elements| + 1 && |r.value.placed| == |t.placed| + 1 &&
      Last(r.value.elements).TextElement? && Consistent(Last(r.value.elements).geometry) &&
      Last(r.value.placed) == BoxOf(Last(r.value.elements).geometry)
    ensures r.Success? && Balanced(t) ==> Balanced(r.value)
  {
    match FindNodeByPath(item.path, idx)
    case None =>
      var rec := PathNotFound(item.name, item.path);
      CountWhereAppend(t.log, rec, Emitting);
      CountWhereAppend(t.log, rec, Placing);
      Success(t.(log := t.log + [rec]))
    case Some(node) =>
      match PathBasedPosition(item.path, node)
      case Failure(e) => Failure(e)
      case Success(pos) =>
        var t1 := AddText(ctx, t, node, ItemTitle(item), pos.x, pos.y);
        var rec := PathBasedText(item.name, item.path, pos);
        CountWhereAppend(t1.log, rec, Emitting);
        CountWhereAppend(t1.log, rec, Placing);
        Success(t1.(log := t1.log + [rec]))
  }

  /** Where a found item goes: its record carries the path anchor, and its
      text element is the one placed for `text || name || 'テキスト'` at
      that anchor, itself passed through `convertPosition` like a pixel
      position. */
  lemma ProcessItemAnchors(ctx: Ctx, idx: Index, t: Trace, item: TextItem)
    requires FindNodeByPath(item.path, idx).Some?
    ensures var r := ProcessItem(ctx, idx, t, item);
      var n := FindNodeByPath(item.path, idx).value;
      r.Success? ==>
        PathBasedPosition(item.path, n).Success? &&
        var pos := PathBasedPosition(item.path, n).value;
        |r.value.log| > 0 && Last(r.value.log).PathBasedText? && Last(r.value.log).position == pos &&
        |r.value.elements| > 0 && Last(r.value.elements) == PlaceText(ctx, t.placed, n, ItemTitle(item), pos.x, pos.y).0
  {
  }

  /** A log record path mode can write. */
  predicate PathRecord(rec: LogRecord) {
    rec.PathBasedText? || rec.PathNotFound?
  }

  /** `rec` is the record of `item`: a path record for its path that says
      "not found" exactly when the lookup finds nothing. */
  predicate ItemRecord(idx: Index, item: TextItem, rec: LogRecord) {
    PathRecord(rec) && rec.path == item.path && rec.name == item.name &&
    (rec.PathNotFound? <==> FindNodeByPath(item.path, idx).None?)
  }

  /** `processWithTextContent`'s loop from item `i` on: one record per item;
      the first failing item aborts the whole conversion. */
  function ProcessItems(ctx: Ctx, idx: Index, t: Trace, items: seq<TextItem>, i: nat): (r: Result<Trace, ConversionError>)
    requires i <= |items|
    ensures r.Failure? <==> exists k :: i <= k < |items| && ItemFails(idx, items[k])
    ensures r.Failure? ==> r.error.UndefinedLeaf?
    ensures r.Success? ==> Extends(t, r.value) && |r.value.log| == |t.log| + |items| - i
    decreases |items| - i
  {
    if i == |items| then Success(t)
    else
      match ProcessItem(ctx, idx, t, items[i])
      case Failure(e) => Failure(e)
      case Success(t1) => ProcessItems(ctx, idx, t1, items, i + 1)
  }

  /** Path mode logs the items in order: the record at offset `k - i` is
      item `k`'s, and says "not found" exactly when its lookup fails. */
  lemma {:induction false} ProcessItemsRecords(ctx: Ctx, idx: Index, t: Trace, items: seq<TextItem>, i: nat)
    requires i <= |items|
    requires ProcessItems(ctx, idx, t, items, i).Success?
    ensures var r := ProcessItems(ctx, idx, t, items, i).value;
      |t.log| + |items| - i <= |r.log| && RecordsFrom(idx, items, i, r.log, |t.log|)
    decreases |items| - i
  {
    if i < |items| {
      var t1 := ProcessItem(ctx, idx, t, items[i]).value;
      ProcessItemsHead(ctx, idx, t, items, i);
      ProcessItemsRecords(ctx, idx, t1, items, i + 1);
      ShiftItemRecords(idx, items, i, ProcessItems(ctx, idx, t, items, i).value.log, |t.log|);
    }
  }

  /** One step of the loop: the run from item `i` is the run from item
      `i + 1` after item `i`, whose record comes first. */
  lemma ProcessItemsHead(ctx: Ctx, idx: Index, t: Trace, items: seq<TextItem>, i: nat)
    requires i < |items|
    requires ProcessItems(ctx, idx, t, items, i).Success?
    ensures ProcessItem(ctx, idx, t, items[i]).Success?
    ensures var t1 := ProcessItem(ctx, idx, t, items[i]).value;
      var r := ProcessItems(ctx, idx, t, items, i).value;
      r == ProcessItems(ctx, idx, t1, items, i + 1).value &&
      |t1.log| == |t.log| + 1 && |t.log| < |r.log| && ItemRecord(idx, items[i], r.log[|t.log|])
  {
    var t1 := ProcessItem(ctx, idx, t, items[i]).value;
    var r := ProcessItems(ctx, idx, t, items, i).value;
    assert r.log[|t.log|] == t1.log[|t.log|];
  }

  /** The record of item `i` at `base`, followed by the records of the
      later items from `base + 1`, are the records of items `i..` from
      `base`. */
  lemma ShiftItemRecords(idx: Index, items: seq<TextItem>, i: nat, log: seq<LogRecord>, base: nat)
    requires i < |items| && base + |items| - i <= |log|
    requires ItemRecord(idx, items[i], log[base])
    requires RecordsFrom(idx, items, i + 1, log, base + 1)
    ensures RecordsFrom(idx, items, i, log, base)
  {
    forall k | i <= k < |items|
      ensures ItemRecord(idx, items[k], log[base + k - i])
    {
      if k > i {
        assert ItemRecord(idx, items[k], log[base + 1 + k - (i + 1)]);
      }
    }
  }

  /** The records from `base` on are those of items `i..`, in order. */
  predicate RecordsFrom(idx: Index, items: seq<TextItem>, i: nat, log: seq<LogRecord>, base: nat)
    requires base + |items| - i <= |log|
  {
    forall k :: i <= k < |items| ==> ItemRecord(idx, items[k], log[base + k - i])
  }

  /** Path mode emits only consistent text elements. */
  lemma {:induction false} ProcessItemsElements(ctx: Ctx, idx: Index, t: Trace, items: seq<TextItem>, i: nat)
    requires i <= |items|
    requires ProcessItems(ctx, idx, t, items, i).Success?
    ensures var r := ProcessItems(ctx, idx, t, items, i).value;
      forall k :: |t.elements| <= k < |r.elements| ==>
        r.elements[k].TextElement? && Consistent(r.elements[k].geometry)
    decreases |items| - i
  {
    if i < |items| {
      var t1 := ProcessItem(ctx, idx, t, items[i]).value;
      ProcessItemsElements(ctx, idx, t1, items, i + 1);
      var r := ProcessItems(ctx, idx, t1, items, i + 1).value;
      assert r.elements[..|t1.elements|] == t1.elements;
      forall k | |t.elements| <= k < |t1.elements|
        ensures r.elements[k] == t1.elements[k]
      {
        assert r.elements[..|t1.elements|][k] == r.elements[k];
      }
    }
  }

  /** Path mode keeps the state balanced: one element and one placed box
      per found item. */
  lemma {:induction false} ProcessItemsBalanced(ctx: Ctx, idx: Index, t: Trace, items: seq<TextItem>, i: nat)
    requires i <= |items|
    requires ProcessItems(ctx, idx, t, items, i).Success?
    requires Balanced(t)
    ensures Balanced(ProcessItems(ctx, idx, t, items, i).value)
    decreases |items| - i
  {
    if i < |items| {
      var t1 := ProcessItem(ctx, idx, t, items[i]).value;
      ProcessItemsBalanced(ctx, idx, t1, items, i + 1);
    }
  }

  /** The output document's single panel, reduced to what the model keeps:
      the paper type and size, the emitted elements, and the debug log. */
  datatype Conversion = Conversion(paperType: string, paper: Paper, elements: seq<PrintElement>, log: seq<LogRecord>)

  /** `convertFigmaToEDocument`: look the paper up (an unknown paper type
      throws), fit the canvas (`width || 1024` by `height || 724` px) to it,
      and run path mode when `textContent` is an array, even an empty one,
      and the tree walk from the origin otherwise. */
  function Convert(doc: DesignDocument, paperType: string, scaleFactor: real, imageField: string): (r: Result<Conversion, ConversionError>)
    ensures PaperSize(paperType).None? <==> r == Failure(UnknownPaperType(paperType))
    ensures PaperSize(paperType).Some? && doc.textContent.None? ==> r.Success?
    ensures PaperSize(paperType).Some? && doc.textContent.Some? ==>
      (r.Failure? <==>
        exists k :: 0 <= k < |doc.textContent.value| && ItemFails(BuildNodeMap(doc.root, "", []), doc.textContent.value[k]))
    ensures r.Success? ==> r.value.paperType == paperType && Some(r.value.paper) == PaperSize(paperType)
    ensures r.Success? ==> |r.value.elements| == CountWhere(r.value.log, Emitting)
  {
    match PaperSize(paperType)
    case None => Failure(UnknownPaperType(paperType))
    case Some(paper) =>
      var ctx := MakeCtx(paper, OrElse(doc.root.width, 1024.0), OrElse(doc.root.height, 724.0), scaleFactor, imageField);
      if doc.textContent.Some? then
        var idx := BuildNodeMap(doc.root, "", []);
        var r := ProcessItems(ctx, idx, EmptyTrace, doc.textContent.value, 0);
        if r.Failure? then Failure(r.error)
        else
          ProcessItemsBalanced(ctx, idx, EmptyTrace, doc.textContent.value, 0);
          Success(Conversion(paperType, paper, r.value.elements, r.value.log))
      else
        var t := ProcessNode(ctx, EmptyTrace, doc.root, Point(0.0, 0.0));
        Success(Conversion(paperType, paper, t.elements, t.log))
  }

  /** `convertFigmaToEDocument` called with its parameters possibly
      omitted: a missing paper type defaults to A4 and a missing scale
      factor to 1. Without a paper type the conversion never fails for the
      paper, and a successful one is on A4. */
  function ConvertWithDefaults(doc: DesignDocument, paperType: Option<string>, scaleFactor: Option<real>, imageField: string): (r: Result<Conversion, ConversionError>)
    ensures paperType.None? ==> !(r.Failure? && r.error.UnknownPaperType?)
    ensures paperType.None? && r.Success? ==> r.value.paperType == "A4" && r.value.paper == Paper(297.0, 210.0)
    ensures paperType.None? && doc.textContent.None? ==> r.Success?
  {
    var p := match paperType case Some(t) => t case None => "A4";
    var sf := match scaleFactor case Some(f) => f case None => 1.0;
    var r := Convert(doc, p, sf, imageField);
    assert paperType.None? ==> PaperSize(p) == Some(Paper(297.0, 210.0));
    r
  }

  /** `getConversionStats`. */
  datatype ConversionStats = ConversionStats(
    totalElements: nat, textElements: nat, imageElements: nat,
    skippedElements: nat, pathBasedElements: nat, pathNotFoundElements: nat,
    paperSize: string, paperWidth: real, paperHeight: real)

  function GetConversionStats(c: Conversion): (s: ConversionStats)
    ensures s.totalElements == |c.elements| == s.textElements + s.imageElements
    ensures s.textElements == KindCount(c.elements, "text") && s.imageElements == KindCount(c.elements, "image")
    ensures s.skippedElements == CountWhere(c.log, OfType("SKIPPED_IMAGE"))
    ensures s.pathBasedElements == CountWhere(c.log, OfType("PATH_BASED_TEXT"))
    ensures s.pathNotFoundElements == CountWhere(c.log, OfType("PATH_NOT_FOUND"))
    ensures s.paperSize == c.paperType && s.paperWidth == c.paper.width && s.paperHeight == c.paper.height
  {
    KindsPartition(c.elements);
    ConversionStats(
      |c.elements|, KindCount(c.elements, "text"), KindCount(c.elements, "image"),
      CountWhere(c.log, OfType("SKIPPED_IMAGE")),
      CountWhere(c.log, OfType("PATH_BASED_TEXT")),
      CountWhere(c.log, OfType("PATH_NOT_FOUND")),
      c.paperType, c.paper.width, c.paper.height)
  }

  /** Every element is of printed type "text" or "image". */
  lemma {:induction false} KindsPartition(elements: seq<PrintElement>)
    ensures KindCount(elements, "text") + KindCount(elements, "image") == |elements|
    decreases |elements|
  {
    if |elements| > 0 {
      KindsPartition(elements[..|elements| - 1]);
    }
  }

  /** In a log of path records, every record is either based or not found,
      only based records emit, and nothing is skipped. */
  lemma {:induction false} PathLogCounts(log: seq<LogRecord>)
    requires forall k :: 0 <= k < |log| ==> PathRecord(log[k])
    ensures CountWhere(log, OfType("PATH_BASED_TEXT")) + CountWhere(log, OfType("PATH_NOT_FOUND")) == |log|
    ensures CountWhere(log, Emitting) == CountWhere(log, OfType("PATH_BASED_TEXT"))
    ensures CountWhere(log, OfType("SKIPPED_IMAGE")) == 0
    decreases |log|
  {
    if |log| > 0 {
      PathLogCounts(log[..|log| - 1]);
    }
  }

  /** A log of tree records has no path records. */
  lemma {:induction false} TreeLogCounts(log: seq<LogRecord>)
    requires forall k :: 0 <= k < |log| ==> TreeRecord(log[k])
    ensures CountWhere(log, OfType("PATH_BASED_TEXT")) == 0
    ensures CountWhere(log, OfType("PATH_NOT_FOUND")) == 0
    decreases |log|
  {
    if |log| > 0 {
      TreeLogCounts(log[..|log| - 1]);
    }
  }

  lemma {:induction false} AllTextKinds(elements: seq<PrintElement>)
    requires forall k :: 0 <= k < |elements| ==> elements[k].TextElement?
    ensures KindCount(elements, "text") == |elements|
    ensures KindCount(elements, "image") == 0
    decreases |elements|
  {
    if |elements| > 0 {
      AllTextKinds(elements[..|elements| - 1]);
    }
  }

  /** A path-mode run from the empty state writes only path records. */
  lemma PathModeWritesPathRecords(ctx: Ctx, idx: Index, items: seq<TextItem>)
    requires ProcessItems(ctx, idx, EmptyTrace, items, 0).Success?
    ensures var t := ProcessItems(ctx, idx, EmptyTrace, items, 0).value;
      forall k :: 0 <= k < |t.log| ==> PathRecord(t.log[k])
  {
    ProcessItemsRecords(ctx, idx, EmptyTrace, items, 0);
    ItemRecordsArePathRecords(idx, items, ProcessItems(ctx, idx, EmptyTrace, items, 0).value.log);
  }

  lemma ItemRecordsArePathRecords(idx: Index, items: seq<TextItem>, log: seq<LogRecord>)
    requires |log| == |items| && RecordsFrom(idx, items, 0, log, 0)
    ensures forall k :: 0 <= k < |log| ==> PathRecord(log[k])
  {
    forall k | 0 <= k < |log|
      ensures PathRecord(log[k])
    {
      assert ItemRecord(idx, items[k], log[0 + k - 0]);
    }
  }

  /** The counts of a successful path-mode run from the empty state. */
  lemma PathTraceCounts(ctx: Ctx, idx: Index, items: seq<TextItem>)
    requires ProcessItems(ctx, idx, EmptyTrace, items, 0).Success?
    ensures var t := ProcessItems(ctx, idx, EmptyTrace, items, 0).value;
      CountWhere(t.log, OfType("PATH_BASED_TEXT")) + CountWhere(t.log, OfType("PATH_NOT_FOUND")) == |items| &&
      |t.elements| == KindCount(t.elements, "text") == CountWhere(t.log, OfType("PATH_BASED_TEXT")) &&
      KindCount(t.elements, "image") == 0 && CountWhere(t.log, OfType("SKIPPED_IMAGE")) == 0
  {
    var t := ProcessItems(ctx, idx, EmptyTrace, items, 0).value;
    PathModeWritesPathRecords(ctx, idx, items);
    ProcessItemsElements(ctx, idx, EmptyTrace, items, 0);
    ProcessItemsBalanced(ctx, idx, EmptyTrace, items, 0);
    PathLogCounts(t.log);
    AllTextKinds(t.elements);
  }

  /** Statistics of a path-mode conversion: every item is counted once,
      as path-based or not found; the path-based ones are exactly the
      elements, all of them of type text; nothing is skipped. */
  lemma PathModeStats(doc: DesignDocument, paperType: string, scaleFactor: real, imageField: string)
    requires doc.textContent.Some?
    requires Convert(doc, paperType, scaleFactor, imageField).Success?
    ensures var s := GetConversionStats(Convert(doc, paperType, scaleFactor, imageField).value);
      s.pathBasedElements + s.pathNotFoundElements == |doc.textContent.value| &&
      s.totalElements == s.textElements == s.pathBasedElements &&
      s.imageElements == 0 && s.skippedElements == 0
  {
    var paper := PaperSize(paperType).value;
    var ctx := MakeCtx(paper, OrElse(doc.root.width, 1024.0), OrElse(doc.root.height, 724.0), scaleFactor, imageField);
    var idx := BuildNodeMap(doc.root, "", []);
    PathTraceCounts(ctx, idx, doc.textContent.value);
  }

  /** Statistics of a tree-mode conversion count no path records. */
  lemma TreeModeStats(doc: DesignDocument, paperType: string, scaleFactor: real, imageField: string)
    requires doc.textContent.None?
    requires PaperSize(paperType).Some?
    ensures var s := GetConversionStats(Convert(doc, paperType, scaleFactor, imageField).value);
      s.pathBasedElements == 0 && s.pathNotFoundElements == 0 &&
      s.totalElements == s.textElements + s.imageElements
  {
    var paper := PaperSize(paperType).value;
    var ctx := MakeCtx(paper, OrElse(doc.root.width, 1024.0), OrElse(doc.root.height, 724.0), scaleFactor, imageField);
    var t := ProcessNode(ctx, EmptyTrace, doc.root, Point(0.0, 0.0));
    TreeLogCounts(t.log);
  }

  /** A tree-mode conversion's log is the walk of the whole tree from the
      origin: one record per text and drawable node in pre-order, each
      with the node's name and record type, and each text or shape record
      at the node's layout origin. */
  lemma TreeModeWalksTree(doc: DesignDocument, paperType: string, scaleFactor: real, imageField: string)
    requires doc.textContent.None?
    requires PaperSize(paperType).Some?
    ensures var c := Convert(doc, paperType, scaleFactor, imageField).value;
      var ctx := MakeCtx(PaperSize(paperType).value, OrElse(doc.root.width, 1024.0), OrElse(doc.root.height, 724.0), scaleFactor, imageField);
      LogDescribes(c.log, VisitOrder(doc.root)) &&
      LogPlaces(c.log, VisitOrigins(ctx, doc.root, Point(0.0, 0.0)))
  {
    var paper := PaperSize(paperType).value;
    var ctx := MakeCtx(paper, OrElse(doc.root.width, 1024.0), OrElse(doc.root.height, 724.0), scaleFactor, imageField);
    var t := ProcessNode(ctx, EmptyTrace, doc.root, Point(0.0, 0.0));
    ProcessNodeVisits(ctx, EmptyTrace, doc.root, Point(0.0, 0.0));
    ProcessNodePlaces(ctx, EmptyTrace, doc.root, Point(0.0, 0.0));
    assert t.log[|EmptyTrace.log|..] == t.log;
  }

  /** An empty `textContent` array still selects path mode, so the node
      tree is never walked and the document comes out empty. */
  lemma EmptyTextContentIgnoresTree(root: Node, scaleFactor: real, imageField: string)
    ensures Convert(DesignDocument(root, Some([])), "A4", scaleFactor, imageField)
      == Success(Conversion("A4", Paper(297.0, 210.0), [], []))
  {
  }

  /** A childless text node on its own yields one consistent text element,
      one placed box and one `TEXT` record at its layout origin. */
  lemma SingleTextNode(ctx: Ctx, node: Node, origin: Point)
    requires IsTextNode(node) && |node.children| == 0
    ensures var r := ProcessNode(ctx, EmptyTrace, node, origin);
      |r.elements| == 1 && |r.placed| == 1 &&
      r.elements[0].TextElement? && Consistent(r.elements[0].geometry) &&
      r.placed[0] == BoxOf(r.elements[0].geometry) &&
      r.log == [TextRecord(LogName(node), origin)]
  {
    var t1 := VisitNode(ctx, EmptyTrace, node, CalculateLayout(ctx, node, origin));
    assert ProcessNode(ctx, EmptyTrace, node, origin) == t1;
  }
}

=== FILE: design.dfy ===
/** The decoded design document the converter reads: a tree of nodes with
    geometry, typography and paint metadata in pixels, plus an optional
    flat list of text items located by slash-separated paths.

    JavaScript treats a missing string field and an empty one alike in
    every test the converter makes, so optional strings are `string` with
    "" standing for "absent". Numeric fields whose absence differs from 0
    somewhere in the converter are `Option<real>`. */
module Design {
  import opened Wrappers

  /** A node's `type`. `OtherType` stands for every type the converter does
      not test for by name (groups, components, lines, ...). The seven
      names spelled out below have their own constructors; `ReadNodeType`
      never builds an `OtherType` carrying one of them, and
      `WellFormedType` names the values it builds. */
  datatype NodeType =
    | Frame | Text | Rectangle | Ellipse | Polygon | Vector | ImageNode
    | OtherType(tag: string)
  {
    /** The type as the design tool spells it (`node.type`). */
    function Name(): string {
      match this
      case Frame => "FRAME"
      case Text => "TEXT"
      case Rectangle => "RECTANGLE"
      case Ellipse => "ELLIPSE"
      case Polygon => "POLYGON"
      case Vector => "VECTOR"
      case ImageNode => "IMAGE"
      case OtherType(tag) => tag
    }
  }

  /** An RGB colour with channels nominally in [0, 1]; a missing channel
      reads as 0 (`colorObj.r || 0`). */
  datatype Color = Color(r: real, g: real, b: real)

  /** The tags the converter tests `node.type` against. */
  const NAMED_TYPES: seq<string> := ["FRAME", "TEXT", "RECTANGLE", "ELLIPSE", "POLYGON", "VECTOR", "IMAGE"]

  /** A type value as the decoder builds it: an `OtherType` never hides a
      named tag. */
  predicate WellFormedType(t: NodeType) {
    t.OtherType? ==> t.tag !in NAMED_TYPES
  }

  /** Reading `node.type`: each named tag selects its constructor, any other
      tag is kept as `OtherType`. The value spells the tag it was read
      from, so every `=== 'TEXT'`-style test on the tag agrees with a test
      on the constructor. */
  function ReadNodeType(tag: string): (t: NodeType)
    ensures t.Name() == tag
    ensures WellFormedType(t)
    ensures t.OtherType? <==> tag !in NAMED_TYPES
  {
    if tag == "FRAME" then Frame
    else if tag == "TEXT" then Text
    else if tag == "RECTANGLE" then Rectangle
    else if tag == "ELLIPSE" then Ellipse
    else if tag == "POLYGON" then Polygon
    else if tag == "VECTOR" then Vector
    else if tag == "IMAGE" then ImageNode
    else OtherType(tag)
  }

  /** Reading back the tag of a well-formed type gives the same type. */
  lemma ReadNodeTypeOfName(t: NodeType)
    requires WellFormedType(t)
    ensures ReadNodeType(t.Name()) == t
  {
  }

  /** A fill's or stroke's `type`; `OtherPaint` never carries "SOLID" or
      "IMAGE" when built by `ReadPaintKind`. */
  datatype PaintKind = Solid | ImagePaint | OtherPaint(tag: string)
  {
    function Name(): string {
      match this
      case Solid => "SOLID"
      case ImagePaint => "IMAGE"
      case OtherPaint(tag) => tag
    }
  }

  /** Reading a paint's `type`: only "IMAGE" is an image paint, which is
      the one test the converter makes on it. */
  function ReadPaintKind(tag: string): (k: PaintKind)
    ensures k.Name() == tag
    ensures k.ImagePaint? <==> tag == "IMAGE"
    ensures k.OtherPaint? <==> tag != "SOLID" && tag != "IMAGE"
  {
    if tag == "SOLID" then Solid else if tag == "IMAGE" then ImagePaint else OtherPaint(tag)
  }

  /** One fill or stroke; `imageHash` is "" when absent. */
  datatype Paint = Paint(kind: PaintKind, color: Option<Color>, imageHash: string)

  datatype LetterSpacing = LetterSpacing(value: real, unit: string)

  datatype LayoutMode = NoLayout | Horizontal | Vertical

  datatype Node = Node(
    nodeType: NodeType,
    name: string,
    width: Option<real>,
    height: Option<real>,
    characters: string,
    fontSize: Option<real>,
    fontWeight: real,
    letterSpacing: Option<LetterSpacing>,
    textAlignHorizontal: string,
    textAlignVertical: string,
    fills: seq<Paint>,
    strokes: seq<Paint>,
    backgroundColor: Option<Color>,
    layoutMode: LayoutMode,
    children: seq<Node>)

  /** One entry of the auxiliary `textContent` list. */
  datatype TextItem = TextItem(path: string, name: string, text: string)

  /** The whole input: the root node (whose width and height are the
      canvas size) and, when `textContent` is an array, its items. */
  datatype DesignDocument = DesignDocument(root: Node, textContent: Option<seq<TextItem>>)

  /** A position on the page or canvas. */
  datatype Point = Point(x: real, y: real)

  /** The ways a conversion can throw: an unknown paper type, and a found
      text-content path with no "/" whose leaf is therefore undefined. */
  datatype ConversionError = UnknownPaperType(paperType: string) | UndefinedLeaf(path: string)

  /** JavaScript truthiness of an optional number: present and non-zero. */
  predicate Truthy(v: Option<real>) {
    v.Some? && v.value != 0.0
  }

  /** `v || fallback` on an optional number. */
  function OrElse(v: Option<real>, fallback: real): real {
    if Truthy(v) then v.value else fallback
  }

  /** A node of the given type and name with every other field absent. */
  function BareNode(t: NodeType, name: string): Node {
    Node(t, name, None, None, "", None, 0.0, None, "", "", [], [], None, NoLayout, [])
  }
}

=== FILE: elements.dfy ===
/** The print elements the converter emits and the per-node builders:
    text boxes placed by the collision-avoiding search, and image or shape
    boxes placed at their converted anchor. Also the node classifiers that
    decide which builder (if any) a node goes to. */
module Elements {
  import opened Wrappers
  import opened Strings
  import opened Numeric
  import opened Design
  import opened Units
  import opened Styles
  import opened Placer

  /** The box of a print element in millimetres, with its derived edges
      and centres as separate fields, as the output format stores them. */
  datatype Geometry = Geometry(
    left: real, top: real, width: real, height: real,
    right: real, bottom: real, vCenter: real, hCenter: real)

  /** The derived fields agree with the box. */
  predicate Consistent(g: Geometry) {
    g.right == g.left + g.width && g.bottom == g.top + g.height &&
    g.vCenter == g.left + g.width / 2.0 && g.hCenter == g.top + g.height / 2.0
  }

  /** A text element's background: none, the node's raw colour object
      copied as is (text nodes), or a converted hex string (shapes). */
  datatype Background = NoBackground | RawColor(color: Color) | HexColor(hex: string)

  /** The options of an element of printed type "text". */
  datatype TextStyle = TextStyle(
    fontSize: real,
    title: string,
    letterSpacing: real,
    padding: real,
    verticalAlign: string,
    textAlign: Option<string>,
    bold: bool,
    color: Option<string>,
    background: Background,
    bordered: bool,
    borderColor: Option<string>)

  datatype PrintElement =
    | TextElement(geometry: Geometry, style: TextStyle)
    | ImageElement(geometry: Geometry, field: string)
  {
    /** `printElementType.type`. */
    function Kind(): string {
      if TextElement? then "text" else "image"
    }
  }

  /** `isTextNode`: a text node with non-empty characters. */
  predicate IsTextNode(node: Node) {
    node.nodeType == Text && node.characters != ""
  }

  /** `isImageOrShapeNode`: one of the five drawable types. */
  predicate IsImageOrShapeNode(node: Node) {
    node.nodeType in {Rectangle, Ellipse, Polygon, Vector, ImageNode}
  }

  /** Fill `i` is the first image fill with a hash. */
  predicate IsFirstImageHash(fills: seq<Paint>, i: nat)
    requires i < |fills|
  {
    fills[i].kind == ImagePaint && fills[i].imageHash != "" &&
    forall j :: 0 <= j < i ==> !(fills[j].kind == ImagePaint && fills[j].imageHash != "")
  }

  /** `getImageHash`: the hash of the first image fill that has one. */
  function GetImageHash(fills: seq<Paint>): (r: Option<string>)
    ensures r.Some? <==> exists i :: 0 <= i < |fills| && fills[i].kind == ImagePaint && fills[i].imageHash != ""
    ensures r.Some? ==> r.value != "" && (exists i :: 0 <= i < |fills| && IsFirstImageHash(fills, i) && fills[i].imageHash == r.value)
    decreases |fills|
  {
    if |fills| == 0 then None
    else if fills[0].kind == ImagePaint && fills[0].imageHash != "" then Some(fills[0].imageHash)
    else
      var rest := GetImageHash(fills[1..]);
      assert forall i :: 1 <= i < |fills| ==> fills[i] == fills[1..][i - 1];
      rest
  }

  /** `shouldSkipImageNode`: a rectangle carrying an image hash that is
      either named "image" (any ASCII case) or smaller than 20 px on both
      sides. */
  predicate ShouldSkipImageNode(node: Node) {
    var hashed := GetImageHash(node.fills).Some?;
    (node.nodeType == Rectangle && node.name != "" && ToLowerAscii(node.name) == "image" && hashed) ||
    (node.nodeType == Rectangle && hashed && Truthy(node.width) && Truthy(node.height) &&
     node.width.value < 20.0 && node.height.value < 20.0)
  }

  /** Skipped nodes are always rectangles, so they are drawable, and never
      text nodes. */
  lemma SkippedIsDrawable(node: Node)
    requires ShouldSkipImageNode(node)
    ensures IsImageOrShapeNode(node) && !IsTextNode(node)
    ensures GetImageHash(node.fills).Some?
  {
  }

  /** The largest text box the converter allows: 90% of the paper width
      less 40 mm, and the larger of 15 mm and 15% of the height less 60 mm. */
  function TextWidthLimit(paper: Paper): real {
    (paper.width - 40.0) * 0.9
  }

  function TextHeightLimit(paper: Paper): real {
    Max(15.0, (paper.height - 60.0) * 0.15)
  }

  /** The options of a text element: the converted font size (12 px by
      default), the sanitised title, the converted letter spacing, no
      padding, the converted vertical alignment, a horizontal alignment
      only when the node has one, bold from weight 600, the first fill's
      colour, the node's background colour as given, and solid borders
      exactly when the node has strokes, with no border colour. */
  function TextStyleOf(ctx: Ctx, node: Node, title: string): (st: TextStyle)
    ensures st.fontSize == ConvertFontSize(ctx.scaleFactor, OrElse(node.fontSize, 12.0))
    ensures st.title == SanitizeText(title)
    ensures st.letterSpacing == ConvertLetterSpacing(node.letterSpacing) && st.padding == 0.0
    ensures st.verticalAlign == ConvertVerticalAlign(node.textAlignVertical)
    ensures st.textAlign.Some? <==> node.textAlignHorizontal != ""
    ensures st.textAlign.Some? ==> st.textAlign.value == ConvertTextAlign(node.textAlignHorizontal)
    ensures st.bold <==> node.fontWeight >= 600.0
    ensures st.color.Some? <==> |node.fills| > 0 && node.fills[0].color.Some?
    ensures st.color.Some? ==> st.color.value == ConvertColor(node.fills[0].color)
    ensures st.background != NoBackground <==> node.backgroundColor.Some?
    ensures node.backgroundColor.Some? ==> st.background == RawColor(node.backgroundColor.value)
    ensures st.bordered <==> |node.strokes| > 0
    ensures st.borderColor.None?
  {
    TextStyle(
      ConvertFontSize(ctx.scaleFactor, OrElse(node.fontSize, 12.0)),
      SanitizeText(title),
      ConvertLetterSpacing(node.letterSpacing),
      0.0,
      ConvertVerticalAlign(node.textAlignVertical),
      if node.textAlignHorizontal != "" then Some(ConvertTextAlign(node.textAlignHorizontal)) else None,
      node.fontWeight >= 600.0,
      if |node.fills| > 0 && node.fills[0].color.Some? then Some(ConvertColor(node.fills[0].color)) else None,
      if node.backgroundColor.Some? then RawColor(node.backgroundColor.value) else NoBackground,
      |node.strokes| > 0,
      None)
  }

  /** The common body of `convertTextNode` and `convertTextNodeWithPath`:
      size the box, clamp it to the text limits, move its converted anchor
      to the first free spot, and build the element together with the
      rectangle to record as placed. The element's derived edges agree with
      its box, the recorded rectangle is exactly that box, and the box is
      clear of every placed one and inside the margins unless the search
      fell back. */
  function PlaceText(ctx: Ctx, placed: seq<Rect>, node: Node, title: string, x: real, y: real): (r: (PrintElement, Rect))
    ensures r.0.TextElement? && Consistent(r.0.geometry)
    ensures var g := r.0.geometry;
      r.1 == Rect(g.left, g.top, g.width, g.height)
    ensures r.0.geometry.width == Min(ConvertSize(ctx.paper, ctx.scaleFactor, OrElse(node.width, 80.0)), TextWidthLimit(ctx.paper))
    ensures r.0.geometry.height == Min(ConvertSize(ctx.paper, ctx.scaleFactor, OrElse(node.height, 12.0)), TextHeightLimit(ctx.paper))
    ensures var g := r.0.geometry;
      Point(g.left, g.top) == FindNonOverlappingPosition(ctx.paper, placed,
        ConvertPosition(ctx.positionScale, x), ConvertPosition(ctx.positionScale, y), g.width, g.height)
    ensures var g := r.0.geometry;
      var ax, ay := ConvertPosition(ctx.positionScale, x), ConvertPosition(ctx.positionScale, y);
      Accepted(ctx.paper, placed, Point(g.left, g.top), g.width, g.height) ||
      Point(g.left, g.top) == Fallback(ctx.paper, ax, ay, g.width, g.height)
    ensures var g := r.0.geometry;
      Min(8.0, TextWidthLimit(ctx.paper)) <= g.width <= TextWidthLimit(ctx.paper) &&
      Min(8.0, TextHeightLimit(ctx.paper)) <= g.height <= TextHeightLimit(ctx.paper)
    ensures r.0.style == TextStyleOf(ctx, node, title)
    ensures 6.0 <= r.0.style.fontSize <= 18.0
    ensures r.0.style.title == SanitizeText(title) && |r.0.style.title| <= MAX_TITLE_LENGTH
  {
    var w := Min(ConvertSize(ctx.paper, ctx.scaleFactor, OrElse(node.width, 80.0)), TextWidthLimit(ctx.paper));
    var h := Min(ConvertSize(ctx.paper, ctx.scaleFactor, OrElse(node.height, 12.0)), TextHeightLimit(ctx.paper));
    var p := FindNonOverlappingPosition(
      ctx.paper, placed,
      ConvertPosition(ctx.positionScale, x), ConvertPosition(ctx.positionScale, y), w, h);
    var g := Geometry(p.x, p.y, w, h, p.x + w, p.y + h, p.x + w / 2.0, p.y + h / 2.0);
    (TextElement(g, TextStyleOf(ctx, node, title)), Rect(p.x, p.y, w, h))
  }

  /** The title of a shape placeholder: `[TYPE] name`. */
  function ShapeTitle(node: Node): string {
    "[" + node.nodeType.Name() + "] " + FirstNonEmpty(node.name, "", "図形要素")
  }

  /** `convertImageOrShapeNode`: a rectangle with an image fill becomes an
      image element carrying the conversion's image field name; any other
      drawable becomes a text-typed placeholder titled with its type and
      name. Neither goes through the placement search. The box is at least
      8 mm on each side, starts right of the margin for a non-negative
      anchor, and its right and bottom edges are not left of or above its
      left and top edges for a non-negative size. */
  function ConvertImageOrShapeNode(ctx: Ctx, node: Node, x: real, y: real): (e: PrintElement)
    ensures e.ImageElement? <==> node.nodeType == Rectangle && exists i :: 0 <= i < |node.fills| && node.fills[i].kind == ImagePaint
    ensures e.ImageElement? ==> e.field == ctx.imageField
    ensures e.TextElement? ==> e.style.title == ShapeTitle(node) && e.style.fontSize == 8.0
    ensures e.TextElement? ==> (e.style.background != NoBackground <==> |node.fills| > 0 && node.fills[0].color.Some?)
    ensures e.TextElement? && |node.fills| > 0 && node.fills[0].color.Some? ==>
      e.style.background == HexColor(ConvertColor(node.fills[0].color))
    ensures e.TextElement? ==>
      e.style.letterSpacing == 0.0 && e.style.padding == 2.0 && e.style.verticalAlign == "middle" &&
      e.style.textAlign == Some("center") && !e.style.bold && e.style.color.None?
    ensures e.TextElement? ==> (e.style.bordered <==> |node.strokes| > 0)
    ensures e.TextElement? ==> (e.style.borderColor.Some? <==> |node.strokes| > 0 && node.strokes[0].color.Some?)
    ensures e.TextElement? && e.style.borderColor.Some? ==> e.style.borderColor.value == ConvertColor(node.strokes[0].color)
    ensures var s := ctx.positionScale;
      e.geometry.left == ConvertPosition(s, x) && e.geometry.top == ConvertPosition(s, y)
    ensures e.geometry.width == ConvertSize(ctx.paper, ctx.scaleFactor, OrElse(node.width, 100.0))
    ensures e.geometry.height == ConvertSize(ctx.paper, ctx.scaleFactor, OrElse(node.height, 20.0))
    ensures var s := ctx.positionScale;
      e.geometry.right == ConvertPosition(s, x + OrElse(node.width, 100.0)) &&
      e.geometry.bottom == ConvertPosition(s, y + OrElse(node.height, 20.0))
    ensures var s := ctx.positionScale;
      e.geometry.vCenter == ConvertPosition(s, x + OrElse(node.width, 100.0) / 2.0) &&
      e.geometry.hCenter == ConvertPosition(s, y + OrElse(node.height, 20.0) / 2.0)
    ensures e.geometry.width >= 8.0 && e.geometry.height >= 8.0
    ensures ctx.positionScale >= 0.0 && x >= 0.0 ==> e.geometry.left >= 10.0
    ensures ctx.positionScale >= 0.0 && y >= 0.0 ==> e.geometry.top >= 10.0
    ensures ctx.positionScale >= 0.0 && OrElse(node.width, 100.0) >= 0.0 ==>
      e.geometry.left <= e.geometry.vCenter <= e.geometry.right
    ensures ctx.positionScale >= 0.0 && OrElse(node.height, 20.0) >= 0.0 ==>
      e.geometry.top <= e.geometry.hCenter <= e.geometry.bottom
  {
    var s := ctx.positionScale;
    var w := OrElse(node.width, 100.0);
    var h := OrElse(node.height, 20.0);
    SpanOrdered(s, x, w);
    SpanOrdered(s, y, h);
    var g := Geometry(
      ConvertPosition(s, x), ConvertPosition(s, y),
      ConvertSize(ctx.paper, ctx.scaleFactor, w), ConvertSize(ctx.paper, ctx.scaleFactor, h),
      ConvertPosition(s, x + w), ConvertPosition(s, y + h),
      ConvertPosition(s, x + w / 2.0), ConvertPosition(s, y + h / 2.0));
    var isImage := node.nodeType == Rectangle && exists i :: 0 <= i < |node.fills| && node.fills[i].kind == ImagePaint;
    if isImage then ImageElement(g, ctx.imageField)
    else
      var bordered := |node.strokes| > 0;
      TextElement(g, TextStyle(
        8.0,
        ShapeTitle(node),
        0.0,
        2.0,
        "middle",
        Some("center"),
        false,
        None,
        if |node.fills| > 0 && node.fills[0].color.Some? then HexColor(ConvertColor(node.fills[0].color)) else NoBackground,
        bordered,
        if bordered && node.strokes[0].color.Some? then Some(ConvertColor(node.strokes[0].color)) else None))
  }

  /** A span of non-negative length keeps its start, middle and end in
      order through `convertPosition`. */
  lemma SpanOrdered(s: real, a: real, len: real)
    ensures s >= 0.0 && len >= 0.0 ==>
      ConvertPosition(s, a) <= ConvertPosition(s, a + len / 2.0) <= ConvertPosition(s, a + len)
  {
    if s >= 0.0 && len >= 0.0 {
      ConvertPositionMonotone(s, a, a + len / 2.0);
      ConvertPositionMonotone(s, a + len / 2.0, a + len);
    }
  }

  /** A shape's size and style do not depend on where it is anchored, and
      moving the anchor right or down never moves the box left or up. */
  lemma ShapeSizeIgnoresPosition(ctx: Ctx, node: Node, x1: real, y1: real, x2: real, y2: real)
    requires ctx.positionScale >= 0.0
    ensures var e1, e2 := ConvertImageOrShapeNode(ctx, node, x1, y1), ConvertImageOrShapeNode(ctx, node, x2, y2);
      && e1.geometry.width == e2.geometry.width
      && e1.geometry.height == e2.geometry.height
      && e1.Kind() == e2.Kind()
      && (e1.TextElement? ==> e1.style == e2.style)
      && (x1 <= x2 ==> e1.geometry.left <= e2.geometry.left && e1.geometry.right <= e2.geometry.right)
      && (y1 <= y2 ==> e1.geometry.top <= e2.geometry.top && e1.geometry.bottom <= e2.geometry.bottom)
  {
    var w, h := OrElse(node.width, 100.0), OrElse(node.height, 20.0);
    var s := ctx.positionScale;
    if x1 <= x2 {
      ConvertPositionMonotone(s, x1, x2);
      ConvertPositionMonotone(s, x1 + w, x2 + w);
    }
    if y1 <= y2 {
      ConvertPositionMonotone(s, y1, y2);
      ConvertPositionMonotone(s, y1 + h, y2 + h);
    }
  }

  /** Image and shape boxes are not `Consistent` in general: their right
      edge is the converted far corner, which uses the canvas-fit position
      scale, while their width uses only the user scale. On an A4 page a
      512 x 362 px canvas gets a position scale of about 1.98, so a 100 px
      wide shape at the origin is about 26.46 mm wide while its right edge
      is more than 50 mm right of its left edge. */
  lemma ShapeGeometryCanDisagree()
    ensures var ctx := MakeCtx(Paper(297.0, 210.0), 512.0, 362.0, 1.0, "image_0");
      var node := BareNode(Ellipse, "circle").(width := Some(100.0), height := Some(20.0));
      var g := ConvertImageOrShapeNode(ctx, node, 0.0, 0.0).geometry;
      !Consistent(g) && g.right - g.left > 50.0 && g.width < 27.0
  {
    var ctx := MakeCtx(Paper(297.0, 210.0), 512.0, 362.0, 1.0, "image_0");
    var sx := (297.0 - 20.0) / (512.0 * PX_TO_MM);
    var sy := (210.0 - 20.0) / (362.0 * PX_TO_MM);
    assert sx >= 1.9 by {
      assert 512.0 * PX_TO_MM * 1.9 <= 277.0;
    }
    assert sy >= 1.9 by {
      assert 362.0 * PX_TO_MM * 1.9 <= 190.0;
    }
    assert ctx.positionScale == Min(sx, sy) * 1.0;
    var s := ctx.positionScale;
    assert s >= 1.9;
    var node := BareNode(Ellipse, "circle").(width := Some(100.0), height := Some(20.0));
    var g := ConvertImageOrShapeNode(ctx, node, 0.0, 0.0).geometry;
    assert g.left <= 10.005;
    assert 100.0 * PX_TO_MM * s >= 100.0 * PX_TO_MM * 1.9 by {
      MulMonotone(1.9, s, 100.0 * PX_TO_MM);
    }
    assert g.right >= 100.0 * PX_TO_MM * s + 10.0 - 0.005;
    assert SizeCap(ctx.paper) == 90.0;
    assert g.width <= 26.4583 + 0.005;
  }
}

=== FILE: hash.dfy ===
/** The converter's `simpleHash`: a rolling `(hash << 5) - hash + code`
    over the string's UTF-16 code units, kept in a signed 32-bit integer
    and returned as its absolute value. */
module Hash {
  import opened Numeric

  const SURROGATE_BASE: int := 0x1_0000
  const HIGH_SURROGATE: int := 0xD800
  const LOW_SURROGATE: int := 0xDC00

  /** The UTF-16 code units of one character, as `charCodeAt` reads them:
      the code point itself inside the Basic Multilingual Plane, otherwise
      a high surrogate followed by a low surrogate. */
  function Utf16Units(c: char): (u: seq<nat>)
    ensures 1 <= |u| <= 2
    ensures |u| == 1 <==> c as int < SURROGATE_BASE
    ensures |u| == 1 ==> u[0] == c as nat
    ensures |u| == 2 ==> HIGH_SURROGATE <= u[0] < LOW_SURROGATE && LOW_SURROGATE <= u[1] < LOW_SURROGATE + 0x400
  {
    if c as int < SURROGATE_BASE then [c as nat]
    else
      var v := c as int - SURROGATE_BASE;
      [HIGH_SURROGATE + v / 0x400, LOW_SURROGATE + v % 0x400]
  }

  /** Decoding a surrogate pair gives back the code point it encodes. */
  lemma Utf16PairDecodes(c: char)
    requires c as int >= SURROGATE_BASE
    ensures var u := Utf16Units(c);
      (u[0] - HIGH_SURROGATE) * 0x400 + (u[1] - LOW_SURROGATE) + SURROGATE_BASE == c as int
  {
  }

  /** The code units of a whole string: `str.charCodeAt(i)` for every
      `i < str.length`. */
  function CodeUnits(s: string): (u: seq<nat>)
    ensures |u| >= |s|
    decreases |s|
  {
    if |s| == 0 then [] else CodeUnits(s[..|s| - 1]) + Utf16Units(s[|s| - 1])
  }

  /** Text inside the Basic Multilingual Plane has one code unit per
      character, equal to the character's code point. */
  lemma {:induction false} CodeUnitsOfBmpText(s: string)
    requires forall i :: 0 <= i < |s| ==> s[i] as int < SURROGATE_BASE
    ensures |CodeUnits(s)| == |s|
    ensures forall i :: 0 <= i < |s| ==> CodeUnits(s)[i] == s[i] as nat
    decreases |s|
  {
    if |s| > 0 {
      CodeUnitsOfBmpText(s[..|s| - 1]);
    }
  }

  /** One loop step: `hash << 5` wraps to 32 bits, the subtraction and the
      addition of the code unit do not, and `hash & hash` wraps the sum. */
  function HashStep(h: int, code: nat): (r: int)
    ensures -TWO_POW_31 <= r < TWO_POW_31
  {
    Int32(Int32(h * 32) - h + code)
  }

  /** The step is `31 * hash + code` reduced to a signed 32-bit integer. */
  lemma HashStepWraps(h: int, code: nat)
    ensures HashStep(h, code) == Int32(31 * h + code)
  {
    var w := Int32(h * 32);
    var k := (w - h * 32) / TWO_POW_32;
    assert w - h * 32 == k * TWO_POW_32;
    assert w - h + code == (31 * h + code) + k * TWO_POW_32;
    Int32Periodic(31 * h + code, k);
  }

  /** The accumulator after folding the code units `u`, left to right. */
  function HashUnits(u: seq<nat>): (h: int)
    ensures -TWO_POW_31 <= h < TWO_POW_31
    decreases |u|
  {
    if |u| == 0 then 0 else HashStep(HashUnits(u[..|u| - 1]), u[|u| - 1])
  }

  /** The accumulator after one character: one `31 * hash + code` step
      for a character inside the Basic Multilingual Plane, one step per
      surrogate above it, each reduced to a signed 32-bit integer. */
  function HashState(s: string): (h: int)
    ensures -TWO_POW_31 <= h < TWO_POW_31
    decreases |s|
  {
    if |s| == 0 then 0
    else
      var h := HashState(s[..|s| - 1]);
      var c := s[|s| - 1] as int;
      if c < SURROGATE_BASE then Int32(31 * h + c)
      else
        var v := c - SURROGATE_BASE;
        Int32(31 * Int32(31 * h + HIGH_SURROGATE + v / 0x400) + LOW_SURROGATE + v % 0x400)
  }

  /** `simpleHash(s)`: never negative and at most 2^31 (the absolute value
      of the most negative 32-bit integer). */
  function SimpleHash(s: string): (h: nat)
    ensures h <= TWO_POW_31
  {
    Abs(HashState(s))
  }

  /** Folding character by character is folding the string's UTF-16 code
      units one by one, as the `charCodeAt` loop does. */
  lemma {:induction false} HashStateReadsCodeUnits(s: string)
    ensures HashState(s) == HashUnits(CodeUnits(s))
    decreases |s|
  {
    if |s| > 0 {
      var p := s[..|s| - 1];
      var c := s[|s| - 1];
      HashStateReadsCodeUnits(p);
      HashUnitsAppend(CodeUnits(p), Utf16Units(c));
      HashStateStep(s);
    }
  }

  /** One character of the accumulator is one loop step per code unit of
      that character. */
  lemma HashStateStep(s: string)
    requires |s| > 0
    ensures var h, u := HashState(s[..|s| - 1]), Utf16Units(s[|s| - 1]);
      HashState(s) == if |u| == 1 then HashStep(h, u[0]) else HashStep(HashStep(h, u[0]), u[1])
  {
    var h, u := HashState(s[..|s| - 1]), Utf16Units(s[|s| - 1]);
    HashStepWraps(h, u[0]);
    if |u| == 2 {
      HashStepWraps(HashStep(h, u[0]), u[1]);
    }
  }

  /** Folding more code units continues from the accumulator so far. */
  lemma HashUnitsAppend(u: seq<nat>, w: seq<nat>)
    requires 1 <= |w| <= 2
    ensures |w| == 1 ==> HashUnits(u + w) == HashStep(HashUnits(u), w[0])
    ensures |w| == 2 ==> HashUnits(u + w) == HashStep(HashStep(HashUnits(u), w[0]), w[1])
  {
    assert (u + w)[..|u + w| - 1] == u + w[..|w| - 1];
    if |w| == 2 {
      assert (u + w[..1])[..|u|] == u;
    } else {
      assert u + w[..0] == u;
    }
  }

  /** The same hash without wrap-around: the polynomial
      sum of `u[i] * 31^(|u|-1-i)`. */
  function Polynomial(u: seq<nat>): int
    decreases |u|
  {
    if |u| == 0 then 0 else 31 * Polynomial(u[..|u| - 1]) + u[|u| - 1]
  }

  /** The 32-bit accumulator is exactly the unbounded polynomial hash
      reduced to a signed 32-bit integer: wrapping after every step is the
      same as wrapping once at the end. */
  lemma {:induction false} HashIsWrappedPolynomial(u: seq<nat>)
    ensures HashUnits(u) == Int32(Polynomial(u))
    decreases |u|
  {
    if |u| > 0 {
      var p := u[..|u| - 1];
      var c := u[|u| - 1];
      HashIsWrappedPolynomial(p);
      HashStepWraps(HashUnits(p), c);
      var P := Polynomial(p);
      var a := P + TWO_POW_31;
      var q := a / TWO_POW_32;
      assert Int32(P) == P - q * TWO_POW_32;
      assert 31 * Int32(P) + c == (31 * P + c) + (-31 * q) * TWO_POW_32;
      Int32Periodic(31 * P + c, -31 * q);
    }
  }

  /** A character outside the Basic Multilingual Plane is hashed as its two
      surrogates: U+1F600 is read as 0xD83D, 0xDE00, so its hash is
      31 * 55357 + 56832, not its code point 128512. */
  lemma AstralCharHashesSurrogates()
    ensures CodeUnits("\U{1F600}") == [0xD83D, 0xDE00]
    ensures SimpleHash("\U{1F600}") == 1772899
  {
    var s := "\U{1F600}";
    assert s[..0] == [];
    assert CodeUnits(s) == [0xD83D, 0xDE00];
    HashStepWraps(0, 0xD83D);
    HashStepWraps(0xD83D, 0xDE00);
  }
}

=== FILE: nodeindex.dfy ===
/** The path index of a design tree (`buildNodeMap`) and path lookup
    (`findNodeByPath`).

    The index is a JavaScript `Map` from slash-joined ancestor-name paths to
    nodes. It is modelled as a sequence of (key, node) entries in insertion
    order: setting a key that is already present replaces its node in place,
    setting a new key appends it. */
module NodeIndex {
  import opened Wrappers
  import opened Strings
  import opened Design

  type Index = seq<(string, Node)>

  predicate HasKey(idx: Index, key: string) {
    exists i :: 0 <= i < |idx| && idx[i].0 == key
  }

  predicate UniqueKeys(idx: Index) {
    forall i, j :: 0 <= i < j < |idx| ==> idx[i].0 != idx[j].0
  }

  /** `map.get(key)`: the node stored under `key`, if any. */
  function Get(idx: Index, key: string): (r: Option<Node>)
    ensures r.Some? <==> HasKey(idx, key)
    ensures r.Some? ==> exists i :: 0 <= i < |idx| && idx[i] == (key, r.value)
    decreases |idx|
  {
    if |idx| == 0 then None
    else if idx[0].0 == key then Some(idx[0].1)
    else
      var r := Get(idx[1..], key);
      assert r.Some? ==> exists i :: 0 <= i < |idx[1..]| && idx[1..][i] == (key, r.value);
      assert HasKey(idx[1..], key) ==> HasKey(idx, key) by {
        if HasKey(idx[1..], key) {
          var i :| 0 <= i < |idx[1..]| && idx[1..][i].0 == key;
          assert idx[i + 1].0 == key;
        }
      }
      r
  }

  /** `map.set(key, node)`: a key already present keeps its position and
      the keys do not change, a new key goes last (`SetGet` states what
      the key then maps to). */
  function Set(idx: Index, key: string, node: Node): (r: Index)
    ensures HasKey(idx, key) ==> |r| == |idx| && forall i :: 0 <= i < |idx| ==> r[i].0 == idx[i].0
    ensures !HasKey(idx, key) ==> r == idx + [(key, node)]
    decreases |idx|
  {
    if |idx| == 0 then [(key, node)]
    else if idx[0].0 == key then [(key, node)] + idx[1..]
    else
      var rest := Set(idx[1..], key, node);
      assert HasKey(idx, key) ==> HasKey(idx[1..], key) by {
        if HasKey(idx, key) {
          var i :| 0 <= i < |idx| && idx[i].0 == key;
          assert i > 0 && idx[1..][i - 1].0 == key;
        }
      }
      assert !HasKey(idx, key) ==> idx == [idx[0]] + idx[1..];
      [idx[0]] + rest
  }

  /** After `map.set(key, node)`, `key` maps to `node` and every other key
      keeps its node. */
  lemma {:induction false} SetGet(idx: Index, key: string, node: Node, k: string)
    ensures Get(Set(idx, key, node), k) == if k == key then Some(node) else Get(idx, k)
    decreases |idx|
  {
    var r := Set(idx, key, node);
    if |idx| > 0 && idx[0].0 != key {
      SetGet(idx[1..], key, node, k);
      assert r[1..] == Set(idx[1..], key, node);
    } else if |idx| > 0 {
      assert r[1..] == idx[1..];
    }
  }

  /** Setting keeps distinct keys distinct. */
  lemma {:induction false} SetKeepsKeysUnique(idx: Index, key: string, node: Node)
    requires UniqueKeys(idx)
    ensures UniqueKeys(Set(idx, key, node))
  {
    var r := Set(idx, key, node);
    if !HasKey(idx, key) {
      forall i, j | 0 <= i < j < |r| ensures r[i].0 != r[j].0 {
        if j == |idx| {
          assert r[i].0 == idx[i].0;
          assert r[j].0 == key;
        }
      }
    }
  }

  // ---------------------------------------------------------------------
  // Building the index

  /** The key of a named node under its ancestors' path. */
  function KeyOf(path: string, name: string): string {
    if path != "" then path + "/" + name else name
  }

  /** The path handed to a node's children: an unnamed node contributes
      "unnamed". */
  function ChildPath(path: string, node: Node): string {
    KeyOf(path, if node.name != "" then node.name else "unnamed")
  }

  /** `buildNodeMap(node, path, map)`: a depth-first, pre-order walk that
      sets every named node under its path key. */
  function BuildNodeMap(node: Node, path: string, idx: Index): Index
    decreases node, 1
  {
    var withSelf := if node.name != "" then Set(idx, KeyOf(path, node.name), node) else idx;
    BuildChildren(node, 0, ChildPath(path, node), withSelf)
  }

  function BuildChildren(parent: Node, i: nat, childPath: string, idx: Index): Index
    decreases parent, 0, |parent.children| - i
  {
    if i >= |parent.children| then idx
    else BuildChildren(parent, i + 1, childPath, BuildNodeMap(parent.children[i], childPath, idx))
  }

  /** The reference listing: every named node of the tree with its path
      key, in depth-first pre-order, duplicates included. */
  function Entries(node: Node, path: string): seq<(string, Node)>
    decreases node, 1
  {
    (if node.name != "" then [(KeyOf(path, node.name), node)] else [])
    + EntriesOfChildren(node, 0, ChildPath(path, node))
  }

  function EntriesOfChildren(parent: Node, i: nat, childPath: string): seq<(string, Node)>
    decreases parent, 0, |parent.children| - i
  {
    if i >= |parent.children| then []
    else Entries(parent.children[i], childPath) + EntriesOfChildren(parent, i + 1, childPath)
  }

  /** Setting a list of entries one after the other. */
  function SetAll(idx: Index, entries: seq<(string, Node)>): Index
    decreases |entries|
  {
    if |entries| == 0 then idx else SetAll(Set(idx, entries[0].0, entries[0].1), entries[1..])
  }

  lemma {:induction false} SetAllAppend(idx: Index, a: seq<(string, Node)>, b: seq<(string, Node)>)
    ensures SetAll(idx, a + b) == SetAll(SetAll(idx, a), b)
    decreases |a|
  {
    if |a| > 0 {
      assert (a + b)[1..] == a[1..] + b;
      SetAllAppend(Set(idx, a[0].0, a[0].1), a[1..], b);
    } else {
      assert a + b == b;
    }
  }

  /** Building the index sets exactly the reference entries, in order. */
  lemma {:induction false} BuildNodeMapIsSetAll(node: Node, path: string, idx: Index)
    ensures BuildNodeMap(node, path, idx) == SetAll(idx, Entries(node, path))
    decreases node, 1
  {
    var own := if node.name != "" then [(KeyOf(path, node.name), node)] else [];
    var withSelf := if node.name != "" then Set(idx, KeyOf(path, node.name), node) else idx;
    assert SetAll(idx, own) == withSelf;
    BuildChildrenIsSetAll(node, 0, ChildPath(path, node), withSelf);
    SetAllAppend(idx, own, EntriesOfChildren(node, 0, ChildPath(path, node)));
  }

  lemma {:induction false} BuildChildrenIsSetAll(parent: Node, i: nat, childPath: string, idx: Index)
    ensures BuildChildren(parent, i, childPath, idx) == SetAll(idx, EntriesOfChildren(parent, i, childPath))
    decreases parent, 0, |parent.children| - i
  {
    if i < |parent.children| {
      var child := parent.children[i];
      BuildNodeMapIsSetAll(child, childPath, idx);
      BuildChildrenIsSetAll(parent, i + 1, childPath, BuildNodeMap(child, childPath, idx));
      SetAllAppend(idx, Entries(child, childPath), EntriesOfChildren(parent, i + 1, childPath));
    }
  }

  /** The node the last of `entries` with key `key` carries. */
  function LastWithKey(entries: seq<(string, Node)>, key: string): Option<Node>
    decreases |entries|
  {
    if |entries| == 0 then None
    else
      var e := entries[|entries| - 1];
      if e.0 == key then Some(e.1) else LastWithKey(entries[..|entries| - 1], key)
  }

  /** After setting `entries`, a key maps to its last entry's node, or, if
      no entry has that key, to what it mapped to before; distinct keys
      stay distinct. */
  lemma {:induction false} SetAllGet(idx: Index, entries: seq<(string, Node)>, key: string)
    ensures Get(SetAll(idx, entries), key) ==
      if LastWithKey(entries, key).Some? then LastWithKey(entries, key) else Get(idx, key)
    ensures UniqueKeys(idx) ==> UniqueKeys(SetAll(idx, entries))
    decreases |entries|
  {
    if |entries| > 0 {
      var init := entries[..|entries| - 1];
      var e := entries[|entries| - 1];
      assert entries == init + [e];
      SetAllAppend(idx, init, [e]);
      SetAllGet(idx, init, key);
      SetGet(SetAll(idx, init), e.0, e.1, key);
      if UniqueKeys(idx) {
        SetKeepsKeysUnique(SetAll(idx, init), e.0, e.1);
      }
    }
  }

  /** Every indexed node is named, and its key is its name, or ends with
      "/" and its name. */
  lemma {:induction false} EntriesKeysEndWithName(node: Node, path: string)
    ensures forall i :: 0 <= i < |Entries(node, path)| ==>
      var (k, m) := Entries(node, path)[i];
      m.name != "" && (k == m.name || EndsWith(k, "/" + m.name))
    decreases node, 1
  {
    EntriesOfChildrenKeysEndWithName(node, 0, ChildPath(path, node));
    if node.name != "" && path != "" {
      var k := path + "/" + node.name;
      assert k[|k| - |"/" + node.name|..] == "/" + node.name;
    }
  }

  lemma {:induction false} EntriesOfChildrenKeysEndWithName(parent: Node, i: nat, childPath: string)
    ensures forall j :: 0 <= j < |EntriesOfChildren(parent, i, childPath)| ==>
      var (k, m) := EntriesOfChildren(parent, i, childPath)[j];
      m.name != "" && (k == m.name || EndsWith(k, "/" + m.name))
    decreases parent, 0, |parent.children| - i
  {
    if i < |parent.children| {
      EntriesKeysEndWithName(parent.children[i], childPath);
      EntriesOfChildrenKeysEndWithName(parent, i + 1, childPath);
    }
  }

  // ---------------------------------------------------------------------
  // Lookup

  /** The query path without its first segment (the design file name):
      `split('/').slice(1).join('/')`. */
  function DropFirstSegment(path: string): string {
    Join(Split(path, '/')[1..], '/')
  }

  /** The last segment of a path: `split('/').pop()`. */
  function LeafName(path: string): string {
    Last(Split(path, '/'))
  }

  /** Dropping the first segment removes exactly the text up to and
      including the first slash; a path without a slash becomes "". */
  lemma DropFirstSegmentMeaning(path: string)
    ensures '/' !in path ==> DropFirstSegment(path) == ""
    ensures '/' in path ==>
      var first := Split(path, '/')[0];
      '/' !in first && path == first + "/" + DropFirstSegment(path)
  {
    var parts := Split(path, '/');
    JoinSplit(path, '/');
    if '/' in path {
      assert |parts| >= 2;
      assert Join(parts, '/') == parts[0] + ['/'] + Join(parts[1..], '/');
    }
  }

  /** The leaf holds no slash and is the whole path or follows its last
      slash. */
  lemma {:induction false} LeafNameMeaning(path: string)
    ensures '/' !in LeafName(path)
    ensures path == LeafName(path) || EndsWith(path, "/" + LeafName(path))
    decreases |path|
  {
    var parts := Split(path, '/');
    JoinSplit(path, '/');
    JoinLast(parts, '/');
  }

  lemma {:induction false} JoinLast(parts: seq<string>, sep: char)
    requires |parts| >= 1
    ensures var j := Join(parts, sep);
      |parts| == 1 ==> j == Last(parts)
    ensures var j := Join(parts, sep);
      |parts| > 1 ==> EndsWith(j, [sep] + Last(parts))
    decreases |parts|
  {
    if |parts| > 1 {
      JoinLast(parts[1..], sep);
      var j := Join(parts, sep);
      var tail := Join(parts[1..], sep);
      assert j == parts[0] + [sep] + tail;
      var suffix := [sep] + Last(parts);
      if |parts| == 2 {
        assert tail == Last(parts);
        assert j == parts[0] + suffix;
        assert j[|j| - |suffix|..] == suffix;
      } else {
        assert Last(parts[1..]) == Last(parts);
        EndsWithConcat(parts[0] + [sep], tail, suffix);
      }
    }
  }

  lemma EndsWithConcat(x: string, t: string, suffix: string)
    requires EndsWith(t, suffix)
    ensures EndsWith(x + t, suffix)
  {
    var j := x + t;
    assert j[|j| - |suffix|..] == t[|t| - |suffix|..];
  }

  /** The suffix-match rule: a key names the leaf when it equals it or ends
      with "/" and the leaf. */
  predicate LeafMatch(key: string, leaf: string) {
    EndsWith(key, "/" + leaf) || key == leaf
  }

  /** The position of the first entry, in insertion order, whose key
      matches the leaf. */
  function FirstLeafMatch(idx: Index, leaf: string): (r: Option<nat>)
    ensures r.None? <==> forall i :: 0 <= i < |idx| ==> !LeafMatch(idx[i].0, leaf)
    ensures r.Some? ==> r.value < |idx| && LeafMatch(idx[r.value].0, leaf)
    ensures r.Some? ==> forall j :: 0 <= j < r.value ==> !LeafMatch(idx[j].0, leaf)
    decreases |idx|
  {
    if |idx| == 0 then None
    else if LeafMatch(idx[0].0, leaf) then Some(0)
    else
      match FirstLeafMatch(idx[1..], leaf)
      case None => None
      case Some(j) => Some(j + 1)
  }

  /** `findNodeByPath`: the node under the path without its first segment
      if that key exists; otherwise the node of the first entry whose key
      matches the leaf name; otherwise nothing. */
  function FindNodeByPath(target: string, idx: Index): Option<Node> {
    var exact := Get(idx, DropFirstSegment(target));
    if exact.Some? then exact
    else
      match FirstLeafMatch(idx, LeafName(target))
      case None => None
      case Some(i) => Some(idx[i].1)
  }

  /** What a lookup finds: the exact key wins; without it, nothing exactly
      when no key matches the leaf, and otherwise the node of the first
      matching entry. Any node found is one the index stores. */
  lemma FindNodeByPathSpec(target: string, idx: Index)
    ensures var r := FindNodeByPath(target, idx);
      && (HasKey(idx, DropFirstSegment(target)) ==> r == Get(idx, DropFirstSegment(target)))
      && (!HasKey(idx, DropFirstSegment(target)) ==>
        (r.None? <==> forall i :: 0 <= i < |idx| ==> !LeafMatch(idx[i].0, LeafName(target))))
      && (!HasKey(idx, DropFirstSegment(target)) && r.Some? ==>
        exists i :: 0 <= i < |idx| && LeafMatch(idx[i].0, LeafName(target)) && r.value == idx[i].1
          && forall j :: 0 <= j < i ==> !LeafMatch(idx[j].0, LeafName(target)))
      && (r.Some? ==> exists i :: 0 <= i < |idx| && idx[i].1 == r.value)
  {
  }

  /** Over an index built from a tree, a lookup whose leaf is the name of
      some node of the tree always finds a node. */
  lemma LookupFindsNamedNode(root: Node, target: string, m: Node)
    requires exists i :: 0 <= i < |Entries(root, "")| && Entries(root, "")[i].1 == m
    requires m.name == LeafName(target)
    ensures FindNodeByPath(target, BuildNodeMap(root, "", [])).Some?
  {
    var es := Entries(root, "");
    var i :| 0 <= i < |es| && es[i].1 == m;
    var key := es[i].0;
    EntriesKeysEndWithName(root, "");
    assert LeafMatch(key, LeafName(target));
    BuildNodeMapIsSetAll(root, "", []);
    LastWithKeyPresent(es, i);
    SetAllGet([], es, key);
    var idx := BuildNodeMap(root, "", []);
    assert HasKey(idx, key);
    var j :| 0 <= j < |idx| && idx[j].0 == key;
    assert LeafMatch(idx[j].0, LeafName(target));
    FindNodeByPathSpec(target, idx);
  }

  lemma {:induction false} LastWithKeyPresent(entries: seq<(string, Node)>, i: nat)
    requires i < |entries|
    ensures LastWithKey(entries, entries[i].0).Some?
    decreases |entries|
  {
    if i < |entries| - 1 {
      LastWithKeyPresent(entries[..|entries| - 1], i);
    }
  }
}

=== FILE: numeric.dfy ===
/** JavaScript number helpers over mathematical reals and integers:
    `Math.min`, `Math.max`, `Math.round`, the two-decimal rounding
    `Math.round(v * 100) / 100`, and the 32-bit signed wrap-around that
    `|0`-style bitwise operators apply. */
module Numeric {

  function Min(a: real, b: real): real {
    if a <= b then a else b
  }

  function Max(a: real, b: real): real {
    if a >= b then a else b
  }

  /** `Math.round(v)`: the nearest integer, halves rounded up. */
  function Round(v: real): (n: int)
    ensures v - 0.5 < n as real <= v + 0.5
  {
    (v + 0.5).Floor
  }

  /** `Math.round(v * 100) / 100`: rounding to two decimal places. */
  function Round2(v: real): (r: real)
    ensures v - 0.005 < r <= v + 0.005
  {
    Round(v * 100.0) as real / 100.0
  }

  /** Rounding never turns a non-negative quantity negative. */
  lemma Round2NonNegative(v: real)
    requires v >= 0.0
    ensures Round2(v) >= 0.0
  {
  }

  /** Rounding preserves order. */
  lemma Round2Monotone(a: real, b: real)
    requires a <= b
    ensures Round2(a) <= Round2(b)
  {
    RoundMonotone(a * 100.0, b * 100.0);
  }

  lemma RoundMonotone(a: real, b: real)
    requires a <= b
    ensures Round(a) <= Round(b)
  {
    var fa, fb := (a + 0.5).Floor, (b + 0.5).Floor;
    assert fa as real <= a + 0.5 <= b + 0.5 < fb as real + 1.0;
  }

  /** A value that already has at most two decimals is left unchanged. */
  lemma Round2Hundredths(n: int)
    ensures Round2(n as real / 100.0) == n as real / 100.0
  {
    assert (n as real / 100.0) * 100.0 == n as real;
    assert Round(n as real) == n;
  }

  const TWO_POW_31: int := 0x8000_0000
  const TWO_POW_32: int := 0x1_0000_0000

  /** ToInt32: the integer congruent to `v` modulo 2^32 in [-2^31, 2^31). */
  function Int32(v: int): (r: int)
    ensures -TWO_POW_31 <= r < TWO_POW_31
    ensures (r - v) % TWO_POW_32 == 0
  {
    (v + TWO_POW_31) % TWO_POW_32 - TWO_POW_31
  }

  /** Adding a multiple of 2^32 does not change the wrapped value. */
  lemma {:induction false} Int32Periodic(v: int, k: int)
    ensures Int32(v + k * TWO_POW_32) == Int32(v)
  {
    var a := v + TWO_POW_31;
    var q := a / TWO_POW_32;
    var m := a % TWO_POW_32;
    assert a == q * TWO_POW_32 + m;
    assert a + k * TWO_POW_32 == (q + k) * TWO_POW_32 + m;
    assert (a + k * TWO_POW_32) % TWO_POW_32 == m;
  }

  function Abs(v: int): nat {
    if v < 0 then -v else v
  }
}

=== FILE: placer.dfy ===
/** The collision-avoiding placement search (`findNonOverlappingPosition`
    and `isOverlapping`): up to 50 candidate origins are tried in a fixed
    order, and the first one that neither overlaps an already placed text
    box nor leaves the 10 mm page margin is taken. */
module Placer {
  import opened Wrappers
  import opened Numeric
  import opened Design
  import opened Units

  /** A text box already placed on the page, in millimetres. */
  datatype Rect = Rect(x: real, y: real, width: real, height: real)

  const MAX_ATTEMPTS: nat := 50
  const SHIFT_ATTEMPTS: nat := 25
  const MARGIN: real := 10.0
  const GAP: real := 5.0
  const GRID: real := 20.0

  /** `isOverlapping`: the open interiors of the two boxes meet; boxes that
      only touch along an edge do not overlap. */
  predicate Overlapping(x: real, y: real, w: real, h: real, placed: Rect) {
    !(x + w <= placed.x || placed.x + placed.width <= x || y + h <= placed.y || placed.y + placed.height <= y)
  }

  /** `placedElements.some(...)`: some placed box overlaps the candidate. */
  predicate HasOverlap(placed: seq<Rect>, p: Point, w: real, h: real)
    decreases |placed|
  {
    |placed| > 0 && (Overlapping(p.x, p.y, w, h, placed[0]) || HasOverlap(placed[1..], p, w, h))
  }

  /** The box lies inside the page less the 10 mm margin on every side. */
  predicate InBounds(paper: Paper, p: Point, w: real, h: real) {
    p.x + w <= paper.width - MARGIN && p.y + h <= paper.height - MARGIN && p.x >= MARGIN && p.y >= MARGIN
  }

  predicate Accepted(paper: Paper, placed: seq<Rect>, p: Point, w: real, h: real) {
    !HasOverlap(placed, p, w, h) && InBounds(paper, p, w, h)
  }

  /** The move after a rejected attempt: for the first 25 attempts, one box
      width (plus a 5 mm gap) to the right, wrapping to the left margin one
      box height further down when the next box would cross the right
      margin; afterwards the cells of a 10-column 20 mm grid in row order. */
  function Step(paper: Paper, w: real, h: real, current: Point, attempt: nat): Point {
    if attempt < SHIFT_ATTEMPTS then
      var nx := current.x + w + GAP;
      if nx + w > paper.width - MARGIN then Point(MARGIN, current.y + h + GAP)
      else Point(nx, current.y)
    else
      var cell := attempt - SHIFT_ATTEMPTS;
      Point(MARGIN + (cell % 10) as real * GRID, MARGIN + (cell / 10) as real * GRID)
  }

  /** The origin tried at attempt `k`, starting from the requested one. */
  function Candidate(paper: Paper, x: real, y: real, w: real, h: real, k: nat): Point
    decreases k
  {
    if k == 0 then Point(x, y) else Step(paper, w, h, Candidate(paper, x, y, w, h, k - 1), k - 1)
  }

  /** The origin returned when every attempt fails: the requested one,
      pulled inside the margins. */
  function Fallback(paper: Paper, x: real, y: real, w: real, h: real): Point {
    Point(Max(MARGIN, Min(x, paper.width - w - MARGIN)), Max(MARGIN, Min(y, paper.height - h - MARGIN)))
  }

  /** The first accepted attempt at index `k` or later, if any. */
  function FirstAccepted(paper: Paper, placed: seq<Rect>, x: real, y: real, w: real, h: real, k: nat): (r: Option<nat>)
    ensures r.Some? ==> k <= r.value < MAX_ATTEMPTS
    ensures r.Some? ==> Accepted(paper, placed, Candidate(paper, x, y, w, h, r.value), w, h)
    ensures r.Some? ==> forall j :: k <= j < r.value ==> !Accepted(paper, placed, Candidate(paper, x, y, w, h, j), w, h)
    ensures r.None? ==> forall j :: k <= j < MAX_ATTEMPTS ==> !Accepted(paper, placed, Candidate(paper, x, y, w, h, j), w, h)
    decreases MAX_ATTEMPTS - k
  {
    if k >= MAX_ATTEMPTS then None
    else
      var c := Candidate(paper, x, y, w, h, k);
      if Accepted(paper, placed, c, w, h) then Some(k)
      else FirstAccepted(paper, placed, x, y, w, h, k + 1)
  }

  /** `findNonOverlappingPosition`: the first accepted candidate among the
      50 attempts, else the fallback. Whenever some attempt is accepted, the
      result is clear of every placed box and inside the margins. */
  function FindNonOverlappingPosition(paper: Paper, placed: seq<Rect>, x: real, y: real, w: real, h: real): (p: Point)
    ensures Accepted(paper, placed, p, w, h) || p == Fallback(paper, x, y, w, h)
    ensures (exists k :: 0 <= k < MAX_ATTEMPTS && Accepted(paper, placed, Candidate(paper, x, y, w, h, k), w, h))
      ==> Accepted(paper, placed, p, w, h)
    ensures (forall k :: 0 <= k < MAX_ATTEMPTS ==> !Accepted(paper, placed, Candidate(paper, x, y, w, h, k), w, h))
      ==> p == Fallback(paper, x, y, w, h)
    ensures Accepted(paper, placed, Point(x, y), w, h) ==> p == Point(x, y)
  {
    match FirstAccepted(paper, placed, x, y, w, h, 0)
    case Some(k) => Candidate(paper, x, y, w, h, k)
    case None => Fallback(paper, x, y, w, h)
  }

  /** The search loop as the source writes it, carrying the current origin
      from attempt to attempt; it computes the same origin as the
      first-accepted characterization, so it falls back only when all 50
      attempts are rejected. */
  method FindNonOverlappingPositionLoop(paper: Paper, placed: seq<Rect>, x: real, y: real, w: real, h: real) returns (p: Point)
    ensures p == FindNonOverlappingPosition(paper, placed, x, y, w, h)
    ensures Accepted(paper, placed, p, w, h) || p == Fallback(paper, x, y, w, h)
  {
    var current := Point(x, y);
    var attempt: nat := 0;
    while attempt < MAX_ATTEMPTS
      invariant attempt <= MAX_ATTEMPTS
      invariant current == Candidate(paper, x, y, w, h, attempt)
      invariant FirstAccepted(paper, placed, x, y, w, h, 0) == FirstAccepted(paper, placed, x, y, w, h, attempt)
      decreases MAX_ATTEMPTS - attempt
    {
      if Accepted(paper, placed, current, w, h) {
        return current;
      }
      current := Step(paper, w, h, current, attempt);
      attempt := attempt + 1;
    }
    return Fallback(paper, x, y, w, h);
  }

  /** Two nodes with the same anchor and size do not share an origin: once
      the first is placed, the second starts from an occupied origin and
      either moves to an accepted one elsewhere or falls back. */
  lemma DuplicateMovesAway(paper: Paper, placed: seq<Rect>, r: Rect)
    requires r in placed
    requires r.width > 0.0 && r.height > 0.0
    ensures var p := FindNonOverlappingPosition(paper, placed, r.x, r.y, r.width, r.height);
      p != Point(r.x, r.y) || p == Fallback(paper, r.x, r.y, r.width, r.height)
  {
    var i :| 0 <= i < |placed| && placed[i] == r;
    assert Overlapping(r.x, r.y, r.width, r.height, placed[i]);
  }

  /** When the box fits between the margins, the fallback keeps it inside
      them; it moves the requested origin only as far as needed. */
  lemma FallbackInBounds(paper: Paper, x: real, y: real, w: real, h: real)
    requires w <= paper.width - 2.0 * MARGIN && h <= paper.height - 2.0 * MARGIN
    ensures var p := Fallback(paper, x, y, w, h);
      InBounds(paper, p, w, h) &&
      (MARGIN <= x && x + w <= paper.width - MARGIN ==> p.x == x) &&
      (MARGIN <= y && y + h <= paper.height - MARGIN ==> p.y == y)
  {
  }

  /** On an empty page a requested origin inside the margins is kept. */
  lemma EmptyPageKeepsOrigin(paper: Paper, x: real, y: real, w: real, h: real)
    requires InBounds(paper, Point(x, y), w, h)
    ensures FindNonOverlappingPosition(paper, [], x, y, w, h) == Point(x, y)
  {
  }
}

=== FILE: strings.dfy ===
/** String helpers with JavaScript semantics: `includes`, `startsWith`,
    `endsWith`, `split`/`join` on a one-character separator, ASCII
    `toLowerCase`, and the `a || b || c` fallback on strings.

    A JavaScript string is modelled as a `seq<char>`. A Dafny `char` is a
    Unicode scalar value, while JavaScript indexes strings by UTF-16 code
    unit; the two agree on text inside the Basic Multilingual Plane, and
    where the converter depends on the difference (character codes) the
    model spells out the UTF-16 encoding. */
module Strings {

  predicate StartsWith(s: string, prefix: string) {
    |prefix| <= |s| && s[..|prefix|] == prefix
  }

  predicate EndsWith(s: string, suffix: string) {
    |suffix| <= |s| && s[|s| - |suffix|..] == suffix
  }

  /** `s.includes(t)`: `t` occurs somewhere in `s`. */
  predicate Contains(s: string, t: string)
    decreases |s|
  {
    StartsWith(s, t) || (|s| > 0 && Contains(s[1..], t))
  }

  /** `s.split(sep)` for a one-character separator: always at least one
      part, and no part contains the separator. */
  function Split(s: string, sep: char): (parts: seq<string>)
    ensures |parts| >= 1
    ensures forall i :: 0 <= i < |parts| ==> sep !in parts[i]
    ensures |parts| == 1 <==> sep !in s
    decreases |s|
  {
    if |s| == 0 then [""]
    else
      var rest := Split(s[1..], sep);
      if s[0] == sep then [""] + rest
      else [[s[0]] + rest[0]] + rest[1..]
  }

  /** `parts.join(sep)`; the empty array joins to the empty string. */
  function Join(parts: seq<string>, sep: char): string
    decreases |parts|
  {
    if |parts| == 0 then ""
    else if |parts| == 1 then parts[0]
    else parts[0] + [sep] + Join(parts[1..], sep)
  }

  /** Splitting and joining again gives back the original string. */
  lemma {:induction false} JoinSplit(s: string, sep: char)
    ensures Join(Split(s, sep), sep) == s
    decreases |s|
  {
    if |s| > 0 {
      JoinSplit(s[1..], sep);
      var rest := Split(s[1..], sep);
      if s[0] == sep {
        assert s == [sep] + s[1..];
      } else {
        if |rest| == 1 {
          assert Join(rest, sep) == rest[0];
        } else {
          assert Join(rest, sep) == rest[0] + [sep] + Join(rest[1..], sep);
        }
        assert s == [s[0]] + s[1..];
      }
    }
  }

  /** Joining separator-free parts and splitting again gives back the parts. */
  lemma {:induction false} SplitJoin(parts: seq<string>, sep: char)
    requires |parts| >= 1
    requires forall i :: 0 <= i < |parts| ==> sep !in parts[i]
    ensures Split(Join(parts, sep), sep) == parts
    decreases |parts|, |parts[0]|
  {
    var p := parts[0];
    if |p| == 0 {
      if |parts| > 1 {
        SplitJoin(parts[1..], sep);
        assert Join(parts, sep) == [sep] + Join(parts[1..], sep);
        assert ([sep] + Join(parts[1..], sep))[1..] == Join(parts[1..], sep);
        assert [""] + parts[1..] == parts;
      }
    } else {
      var shorter := [p[1..]] + parts[1..];
      DropFirstCharKeepsSepFree(parts, sep);
      SplitJoin(shorter, sep);
      JoinDropFirstChar(parts, sep);
      var j := Join(parts, sep);
      assert Split(j, sep) == [[j[0]] + Split(j[1..], sep)[0]] + Split(j[1..], sep)[1..];
      assert [p[0]] + p[1..] == p;
      assert [p] + parts[1..] == parts;
    }
  }

  /** Dropping the first character of the first part keeps every part free
      of the separator. */
  lemma DropFirstCharKeepsSepFree(parts: seq<string>, sep: char)
    requires |parts| >= 1 && |parts[0]| > 0
    requires forall i :: 0 <= i < |parts| ==> sep !in parts[i]
    ensures var shorter := [parts[0][1..]] + parts[1..];
      forall i :: 0 <= i < |shorter| ==> sep !in shorter[i]
  {
    var p := parts[0];
    var shorter := [p[1..]] + parts[1..];
    forall i | 0 <= i < |shorter| ensures sep !in shorter[i] {
      if i == 0 {
        assert forall c :: c in p[1..] ==> c in p;
      } else {
        assert shorter[i] == parts[i];
      }
    }
  }

  /** Dropping the first character of the first part drops the first
      character of the join. */
  lemma JoinDropFirstChar(parts: seq<string>, sep: char)
    requires |parts| >= 1 && |parts[0]| > 0
    ensures var j := Join(parts, sep);
      |j| > 0 && j[0] == parts[0][0] && Join([parts[0][1..]] + parts[1..], sep) == j[1..]
  {
    var p := parts[0];
    var shorter := [p[1..]] + parts[1..];
    if |parts| == 1 {
      assert shorter == [p[1..]];
    } else {
      var rest := Join(parts[1..], sep);
      assert shorter[0] == p[1..] && shorter[1..] == parts[1..];
      JoinCons(parts, sep);
      JoinCons(shorter, sep);
      ConsDropFirst(p, [sep] + rest);
    }
  }

  /** A join of two or more parts: the first part, the separator, then the
      join of the rest. */
  lemma JoinCons(parts: seq<string>, sep: char)
    requires |parts| >= 2
    ensures Join(parts, sep) == parts[0] + ([sep] + Join(parts[1..], sep))
  {
    assert parts[0] + [sep] + Join(parts[1..], sep) == parts[0] + ([sep] + Join(parts[1..], sep));
  }

  lemma ConsDropFirst(p: string, q: string)
    requires |p| > 0
    ensures (p + q)[0] == p[0] && (p + q)[1..] == p[1..] + q
  {
  }

  /** The last element of a non-empty sequence (`parts.pop()`). */
  function Last<T>(s: seq<T>): T
    requires |s| > 0
  {
    s[|s| - 1]
  }

  predicate IsUpperAscii(c: char) {
    'A' <= c <= 'Z'
  }

  /** `s.toLowerCase()` restricted to the ASCII letters A-Z: no upper-case
      ASCII letter is left, every other character is kept where it was, and
      a changed character is the same letter in the other case. */
  function ToLowerAscii(s: string): (r: string)
    ensures |r| == |s|
    ensures forall i :: 0 <= i < |r| ==> !IsUpperAscii(r[i])
    ensures forall i :: 0 <= i < |s| && !IsUpperAscii(s[i]) ==> r[i] == s[i]
    ensures forall i :: 0 <= i < |s| && IsUpperAscii(s[i]) ==> 'a' <= r[i] <= 'z' && r[i] as int - s[i] as int == 32
  {
    seq(|s|, i requires 0 <= i < |s| => LowerChar(s[i]))
  }

  function LowerChar(c: char): char {
    if IsUpperAscii(c) then (c as int + 32) as char else c
  }

  /** Lower-casing twice is lower-casing once. */
  lemma ToLowerAsciiIdempotent(s: string)
    ensures ToLowerAscii(ToLowerAscii(s)) == ToLowerAscii(s)
  {
  }

  /** `a || b || fallback` on strings: one of the three candidates, empty
      only when all three are, and every candidate it passes over is empty. */
  function FirstNonEmpty(a: string, b: string, fallback: string): (r: string)
    ensures r == a || r == b || r == fallback
    ensures r == "" <==> a == "" && b == "" && fallback == ""
    ensures r != a ==> a == ""
    ensures r != a && r != b ==> b == ""
  {
    if a != "" then a else if b != "" then b else fallback
  }
}

=== FILE: styles.dfy ===
/** Style mapping from design-node attributes to print-element options:
    letter spacing, vertical and horizontal alignment, RGB colour to hex,
    and text sanitising. */
module Styles {
  import opened Wrappers
  import opened Numeric
  import opened Design

  /** `convertLetterSpacing`: a percentage spacing keeps its value, any
      other unit (or none) becomes 0. */
  function ConvertLetterSpacing(spacing: Option<LetterSpacing>): (r: real)
    ensures spacing.Some? && spacing.value.unit == "PERCENT" ==> r == spacing.value.value
    ensures r != 0.0 ==> spacing.Some? && spacing.value.unit == "PERCENT"
  {
    match spacing
    case None => 0.0
    case Some(ls) => if ls.unit == "PERCENT" then ls.value else 0.0
  }

  /** `convertVerticalAlign`: TOP, CENTER and BOTTOM map to top, middle and
      bottom; anything else, including no value, to middle. */
  function ConvertVerticalAlign(align: string): (r: string)
    ensures r in {"top", "middle", "bottom"}
    ensures r == "top" <==> align == "TOP"
    ensures r == "bottom" <==> align == "BOTTOM"
  {
    match align
    case "TOP" => "top"
    case "CENTER" => "middle"
    case "BOTTOM" => "bottom"
    case _ => "middle"
  }

  /** `convertTextAlign`: LEFT, CENTER and RIGHT map to left, center and
      right; anything else to left. */
  function ConvertTextAlign(align: string): (r: string)
    ensures r in {"left", "center", "right"}
    ensures r == "center" <==> align == "CENTER"
    ensures r == "right" <==> align == "RIGHT"
  {
    match align
    case "LEFT" => "left"
    case "CENTER" => "center"
    case "RIGHT" => "right"
    case _ => "left"
  }

  // ---------------------------------------------------------------------
  // Colours

  /** A lower-case hex digit. */
  predicate IsHexDigit(c: char) {
    '0' <= c <= '9' || 'a' <= c <= 'f'
  }

  /** The hex digit of `d` in [0, 16). */
  function HexDigit(d: nat): (c: char)
    requires d < 16
    ensures IsHexDigit(c)
  {
    if d < 10 then ('0' as int + d) as char else ('a' as int + d - 10) as char
  }

  /** `n.toString(16)` for a non-negative integer: lower-case hex digits,
      most significant first, no leading zeros. */
  function NatToHex(n: nat): (s: string)
    ensures |s| >= 1
    ensures forall i :: 0 <= i < |s| ==> IsHexDigit(s[i])
    ensures n < 16 <==> |s| == 1
    ensures 16 <= n < 256 ==> |s| == 2
    decreases n
  {
    if n < 16 then [HexDigit(n)] else NatToHex(n / 16) + [HexDigit(n % 16)]
  }

  /** `n.toString(16)` for any integer: a minus sign before the digits of a
      negative value. */
  function IntToHex(n: int): string {
    if n < 0 then "-" + NatToHex(-n) else NatToHex(n)
  }

  /** `s.padStart(2, '0')`. */
  function PadStart2(s: string): (r: string)
    ensures |r| == if |s| >= 2 then |s| else 2
  {
    if |s| >= 2 then s else seq(2 - |s|, _ => '0') + s
  }

  /** The value of a hex digit; `HexDigit` read back. */
  function DigitValue(c: char): nat {
    if '0' <= c <= '9' then c as nat - '0' as nat
    else if 'a' <= c <= 'f' then c as nat - 'a' as nat + 10
    else 0
  }

  /** The number a string of lower-case hex digits denotes. */
  function HexValue(s: string): nat
    decreases |s|
  {
    if |s| == 0 then 0 else 16 * HexValue(s[..|s| - 1]) + DigitValue(s[|s| - 1])
  }

  /** Reading back the digits `NatToHex` writes gives the number. */
  lemma {:induction false} HexValueOfNatToHex(n: nat)
    ensures HexValue(NatToHex(n)) == n
    decreases n
  {
    var s := NatToHex(n);
    if n < 16 {
      assert s[..0] == [];
      assert DigitValue(HexDigit(n)) == n;
    } else {
      HexValueOfNatToHex(n / 16);
      assert s[..|s| - 1] == NatToHex(n / 16);
      assert DigitValue(HexDigit(n % 16)) == n % 16;
    }
  }

  /** Leading zeros do not change a hex value. */
  lemma {:induction false} HexValueLeadingZero(s: string)
    ensures HexValue("0" + s) == HexValue(s)
    decreases |s|
  {
    if |s| > 0 {
      var t := "0" + s;
      assert t[..|t| - 1] == "0" + s[..|s| - 1];
      HexValueLeadingZero(s[..|s| - 1]);
    } else {
      assert ("0" + s)[..0] == [];
    }
  }

  /** One colour channel as `Math.round(c * 255).toString(16).padStart(2, '0')`. */
  function ChannelHex(c: real): string {
    PadStart2(IntToHex(Round(c * 255.0)))
  }

  /** A channel in [0, 1] becomes exactly two hex digits that read back as
      the channel scaled to [0, 255] and rounded. */
  lemma ChannelHexRoundTrip(c: real)
    requires 0.0 <= c <= 1.0
    ensures 0 <= Round(c * 255.0) <= 255
    ensures |ChannelHex(c)| == 2
    ensures IsHexDigit(ChannelHex(c)[0]) && IsHexDigit(ChannelHex(c)[1])
    ensures HexValue(ChannelHex(c)) == Round(c * 255.0)
  {
    var n := Round(c * 255.0);
    assert 0 <= n <= 255;
    var h := NatToHex(n);
    HexValueOfNatToHex(n);
    if |h| == 1 {
      assert PadStart2(h) == "0" + h;
      HexValueLeadingZero(h);
    }
  }

  /** `convertColor`: "#000000" for no colour, otherwise "#" followed by the
      three padded channel hex strings. */
  function ConvertColor(color: Option<Color>): (r: string)
    ensures color.None? ==> r == "#000000"
    ensures |r| >= 7 && r[0] == '#'
  {
    match color
    case None => "#000000"
    case Some(c) => "#" + ChannelHex(c.r) + ChannelHex(c.g) + ChannelHex(c.b)
  }

  /** For channels in [0, 1] the colour string is "#" and six lower-case
      hex digits whose three pairs read back as the rounded channel bytes. */
  lemma ConvertColorRoundTrip(c: Color)
    requires ValidColor(c)
    ensures var r := ConvertColor(Some(c));
      && |r| == 7
      && (forall i :: 1 <= i < 7 ==> IsHexDigit(r[i]))
      && HexValue(r[1..3]) == Round(c.r * 255.0)
      && HexValue(r[3..5]) == Round(c.g * 255.0)
      && HexValue(r[5..7]) == Round(c.b * 255.0)
  {
    var hr, hg, hb := ChannelHex(c.r), ChannelHex(c.g), ChannelHex(c.b);
    ChannelHexRoundTrip(c.r);
    ChannelHexRoundTrip(c.g);
    ChannelHexRoundTrip(c.b);
    HashThreePairs(hr, hg, hb);
    var r := ConvertColor(Some(c));
    assert r == "#" + hr + hg + hb;
    forall i | 1 <= i < 7 ensures IsHexDigit(r[i]) {
      if i < 3 {
        assert r[i] == hr[i - 1];
      } else if i < 5 {
        assert r[i] == hg[i - 3];
      } else {
        assert r[i] == hb[i - 5];
      }
    }
  }

  /** "#" followed by three two-character strings: each string sits at its
      own pair of positions. */
  lemma HashThreePairs(a: string, b: string, c: string)
    requires |a| == 2 && |b| == 2 && |c| == 2
    ensures var r := "#" + a + b + c;
      && |r| == 7
      && r[1..3] == a && r[3..5] == b && r[5..7] == c
      && r[1] == a[0] && r[2] == a[1] && r[3] == b[0] && r[4] == b[1] && r[5] == c[0] && r[6] == c[1]
  {
    var r := "#" + a + b + c;
    assert r[1..3] == a;
    assert r[3..5] == b;
    assert r[5..7] == c;
  }

  predicate ValidColor(c: Color) {
    0.0 <= c.r <= 1.0 && 0.0 <= c.g <= 1.0 && 0.0 <= c.b <= 1.0
  }

  // ---------------------------------------------------------------------
  // Text

  const MAX_TITLE_LENGTH: nat := 200

  /** `replace(/\r\n/g, '\n')`: every CR LF pair, scanned left to right,
      becomes one LF; the result is one character shorter per pair. */
  function ReplaceCrLf(s: string): (r: string)
    ensures |r| == |s| - CrLfPairs(s)
    decreases |s|
  {
    if |s| == 0 then ""
    else if |s| >= 2 && s[0] == '\r' && s[1] == '\n' then
      assert CrLfPairs(s) == 1 + CrLfPairs(s[2..]) by {
        assert s[1..][0] == '\n' && s[1..][1..] == s[2..];
      }
      "\n" + ReplaceCrLf(s[2..])
    else [s[0]] + ReplaceCrLf(s[1..])
  }

  /** The number of positions where a CR is directly followed by an LF. */
  function CrLfPairs(s: string): (n: nat)
    ensures n <= |s|
    decreases |s|
  {
    if |s| < 2 then 0
    else (if s[0] == '\r' && s[1] == '\n' then 1 else 0) + CrLfPairs(s[1..])
  }

  /** Every CR that stands directly before an LF removed, every other
      character kept in order: the character-by-character reading of the
      CR LF replacement. */
  function DropCrBeforeLf(s: string): string
    decreases |s|
  {
    if |s| == 0 then ""
    else (if |s| >= 2 && s[0] == '\r' && s[1] == '\n' then "" else [s[0]]) + DropCrBeforeLf(s[1..])
  }

  /** Replacing CR LF pairs by LF is dropping the CR of each pair: nothing
      else changes, so a CR without an LF after it survives. */
  lemma {:induction false} ReplaceCrLfDropsCr(s: string)
    ensures ReplaceCrLf(s) == DropCrBeforeLf(s)
    decreases |s|
  {
    if |s| >= 2 && s[0] == '\r' && s[1] == '\n' {
      ReplaceCrLfDropsCr(s[2..]);
      assert s[1..][1..] == s[2..];
      assert DropCrBeforeLf(s[1..]) == [s[1]] + DropCrBeforeLf(s[2..]);
    } else if |s| > 0 {
      ReplaceCrLfDropsCr(s[1..]);
    }
  }

  /** `replace(/\r/g, '\n')`: every remaining CR becomes LF. The result
      holds no CR, has the same length, turns each CR into an LF and keeps
      every other character where it was. */
  function ReplaceCr(s: string): (r: string)
    ensures |r| == |s|
    ensures '\r' !in r
    ensures forall i :: 0 <= i < |s| && s[i] == '\r' ==> r[i] == '\n'
    ensures forall i :: 0 <= i < |s| && s[i] != '\r' ==> r[i] == s[i]
  {
    seq(|s|, i requires 0 <= i < |s| => if s[i] == '\r' then '\n' else s[i])
  }

  /** `sanitizeText`: "" for no text, otherwise line endings normalised to
      LF and the result cut to its first 200 characters: it is the longest
      prefix of at most 200 characters of the normalised text. The result
      never holds a CR, and short CR-free text is returned unchanged. */
  function SanitizeText(text: string): (r: string)
    ensures var normalised := ReplaceCr(ReplaceCrLf(text));
      |r| == (if |normalised| <= MAX_TITLE_LENGTH then |normalised| else MAX_TITLE_LENGTH) &&
      r == normalised[..|r|]
    ensures '\r' !in r
    ensures '\r' !in text && |text| <= MAX_TITLE_LENGTH ==> r == text
  {
    if text == "" then ""
    else
      var normalised := ReplaceCr(ReplaceCrLf(text));
      assert '\r' !in normalised;
      ReplaceCrLfWithoutCr(text);
      if |normalised| <= MAX_TITLE_LENGTH then normalised
      else
        assert forall c :: c in normalised[..MAX_TITLE_LENGTH] ==> c in normalised;
        normalised[..MAX_TITLE_LENGTH]
  }

  /** Text without CR passes through both replacements unchanged. */
  lemma {:induction false} ReplaceCrLfWithoutCr(s: string)
    ensures '\r' !in s ==> ReplaceCrLf(s) == s && ReplaceCr(s) == s
    decreases |s|
  {
    if |s| > 0 && '\r' !in s {
      assert forall c :: c in s[1..] ==> c in s;
      ReplaceCrLfWithoutCr(s[1..]);
      assert s == [s[0]] + s[1..];
    }
  }

  /** Sanitising is idempotent: a sanitised title passes through again
      unchanged. */
  lemma SanitizeTextIdempotent(text: string)
    ensures SanitizeText(SanitizeText(text)) == SanitizeText(text)
  {
  }
}

=== FILE: units.dfy ===
/** Unit and scale conversion from design pixels to print millimetres
    and points, and the fixed paper-size table. */
module Units {
  import opened Wrappers
  import opened Numeric

  /** Millimetres per CSS pixel at 96 DPI. */
  const PX_TO_MM: real := 0.264583

  /** Points per CSS pixel. */
  const PX_TO_PT: real := 0.75

  /** Page size in millimetres (width is the longer, landscape side). */
  datatype Paper = Paper(width: real, height: real)

  /** The six supported paper types; any other name has no entry. */
  function PaperSize(paperType: string): (p: Option<Paper>)
    ensures p.Some? <==> paperType in {"A4", "A3", "B4", "B5", "Letter", "Legal"}
    ensures p.Some? ==> 257.0 <= p.value.width <= 420.0 && 182.0 <= p.value.height <= 297.0
    ensures paperType == "A4" ==> p == Some(Paper(297.0, 210.0))
  {
    match paperType
    case "A4" => Some(Paper(297.0, 210.0))
    case "A3" => Some(Paper(420.0, 297.0))
    case "B4" => Some(Paper(364.0, 257.0))
    case "B5" => Some(Paper(257.0, 182.0))
    case "Letter" => Some(Paper(279.0, 216.0))
    case "Legal" => Some(Paper(356.0, 216.0))
    case _ => None
  }

  /** The per-conversion settings: target paper, design canvas size in
      pixels, the user scale factor, the canvas-fit position scale derived
      from them, and the value the caller's clock gives to image field
      names. Built by `MakeCtx`. */
  datatype Ctx = Ctx(
    paper: Paper,
    canvasWidth: real,
    canvasHeight: real,
    scaleFactor: real,
    positionScale: real,
    imageField: string)

  /** The settings of one conversion. The canvas is `figmaData.width || 1024`
      by `figmaData.height || 724` pixels, so neither side is zero; the
      position scale fits the canvas into the paper less a 10 mm margin on
      each side, times the user scale factor. It is non-negative whenever
      the canvas is and the scale factor is. */
  function MakeCtx(paper: Paper, canvasWidth: real, canvasHeight: real, scaleFactor: real, imageField: string): (ctx: Ctx)
    requires canvasWidth != 0.0 && canvasHeight != 0.0
    ensures ctx.paper == paper && ctx.scaleFactor == scaleFactor
    ensures ctx.canvasWidth == canvasWidth && ctx.canvasHeight == canvasHeight
  {
    var scaleX := (paper.width - 20.0) / (canvasWidth * PX_TO_MM);
    var scaleY := (paper.height - 20.0) / (canvasHeight * PX_TO_MM);
    Ctx(paper, canvasWidth, canvasHeight, scaleFactor, Min(scaleX, scaleY) * scaleFactor, imageField)
  }

  /** The position scale fits the canvas to the paper: the canvas, converted
      at that scale, is no wider than the paper less its two 10 mm margins
      times the user scale, no taller likewise, and exactly that wide or
      tall on the tighter axis. At a user scale of at most 1 the canvas's
      far corner therefore lands inside the right and bottom margins, up to
      rounding. */
  lemma MakeCtxFits(paper: Paper, canvasWidth: real, canvasHeight: real, scaleFactor: real, imageField: string)
    requires canvasWidth > 0.0 && canvasHeight > 0.0
    requires paper.width > 20.0 && paper.height > 20.0
    requires scaleFactor > 0.0
    ensures var s := MakeCtx(paper, canvasWidth, canvasHeight, scaleFactor, imageField).positionScale;
      && s > 0.0
      && canvasWidth * PX_TO_MM * s <= (paper.width - 20.0) * scaleFactor
      && canvasHeight * PX_TO_MM * s <= (paper.height - 20.0) * scaleFactor
      && (canvasWidth * PX_TO_MM * s == (paper.width - 20.0) * scaleFactor ||
          canvasHeight * PX_TO_MM * s == (paper.height - 20.0) * scaleFactor)
      && (scaleFactor <= 1.0 ==>
          ConvertPosition(s, canvasWidth) <= paper.width - 10.0 + 0.005 &&
          ConvertPosition(s, canvasHeight) <= paper.height - 10.0 + 0.005)
  {
    var s := MakeCtx(paper, canvasWidth, canvasHeight, scaleFactor, imageField).positionScale;
    var a, b := canvasWidth * PX_TO_MM, canvasHeight * PX_TO_MM;
    var sx, sy := (paper.width - 20.0) / a, (paper.height - 20.0) / b;
    FitAxis(a, paper.width - 20.0, sx, Min(sx, sy), scaleFactor);
    FitAxis(b, paper.height - 20.0, sy, Min(sx, sy), scaleFactor);
    assert s == Min(sx, sy) * scaleFactor;
  }

  /** One axis of `MakeCtxFits`, over plain reals: `room / extent` scaled
      down to `m` and then by `sf` covers at most `room * sf`, exactly when
      `m` is the full ratio. */
  lemma FitAxis(extent: real, room: real, ratio: real, m: real, sf: real)
    requires extent > 0.0 && room > 0.0 && sf > 0.0
    requires ratio == room / extent
    requires 0.0 < m <= ratio
    ensures m * sf > 0.0
    ensures extent * (m * sf) <= room * sf
    ensures m == ratio ==> extent * (m * sf) == room * sf
    ensures sf <= 1.0 ==> extent * (m * sf) <= room
  {
    assert extent * ratio == room;
    MulMonotone(m, ratio, extent);
    assert extent * m <= room;
    MulMonotone(extent * m, room, sf);
    assert extent * (m * sf) == (extent * m) * sf;
    if sf <= 1.0 {
      MulMonotone(sf, 1.0, room);
    }
  }

  /** `convertPosition` under the position scale `scale` (a conversion's
      `positionScale`): pixels to millimetres under that scale, rounded
      to two decimals, plus the 10 mm page margin. The result is within
      0.005 mm of the exact value and never left of the margin for a
      non-negative position under a non-negative scale. */
  function ConvertPosition(scale: real, position: real): (r: real)
    ensures var exact := position * PX_TO_MM * scale + 10.0;
      exact - 0.005 < r <= exact + 0.005
    ensures position >= 0.0 && scale >= 0.0 ==> r >= 10.0
  {
    var scaled := position * PX_TO_MM * scale;
    ProductNonNegative(position * PX_TO_MM, scale);
    Round2NonNegativeIf(scaled);
    Round2(scaled) + 10.0
  }

  lemma ProductNonNegative(a: real, b: real)
    ensures a >= 0.0 && b >= 0.0 ==> a * b >= 0.0
  {
  }

  lemma Round2NonNegativeIf(v: real)
    ensures v >= 0.0 ==> Round2(v) >= 0.0
  {
    if v >= 0.0 {
      Round2NonNegative(v);
    }
  }

  lemma MulMonotone(a: real, b: real, s: real)
    requires a <= b
    requires s >= 0.0
    ensures a * s <= b * s
  {
    assert b * s - a * s == (b - a) * s;
  }

  lemma ScaleMonotone(a: real, b: real, k: real, s: real)
    requires a <= b
    requires k >= 0.0 && s >= 0.0
    ensures a * k * s <= b * k * s
  {
    MulMonotone(a, b, k);
    MulMonotone(a * k, b * k, s);
  }

  /** Positions keep their order on the page. */
  lemma ConvertPositionMonotone(s: real, a: real, b: real)
    requires s >= 0.0
    requires a <= b
    ensures ConvertPosition(s, a) <= ConvertPosition(s, b)
  {
    ScaleMonotone(a, b, PX_TO_MM, s);
    Round2Monotone(a * PX_TO_MM * s, b * PX_TO_MM * s);
  }

  /** The largest size `convertSize` lets through before rounding: 80% of
      the paper width less 40 mm, and 60% of the height less 60 mm. */
  function SizeCap(paper: Paper): real {
    Min((paper.width - 40.0) * 0.8, (paper.height - 60.0) * 0.6)
  }

  /** `convertSize`: pixels to millimetres under the user scale only, capped
      by both paper limits, rounded, and never below 8 mm. Below the cap and
      above the floor the value is only rounded. */
  function ConvertSize(paper: Paper, scaleFactor: real, size: real): (r: real)
    ensures r >= 8.0
    ensures r <= Max(8.0, Round2(SizeCap(paper)))
    ensures var exact := size * PX_TO_MM * scaleFactor;
      exact <= SizeCap(paper) && Round2(exact) >= 8.0 ==> r == Round2(exact)
  {
    var scaled := size * PX_TO_MM * scaleFactor;
    var capped := CapSize(paper, scaled);
    Round2Monotone(capped, SizeCap(paper));
    Max(8.0, Round2(capped))
  }

  /** The two successive "too large" caps of `convertSize` amount to taking
      the smaller of the value and `SizeCap`. */
  function CapSize(paper: Paper, scaled: real): (r: real)
    ensures r == Min(scaled, SizeCap(paper))
  {
    var maxWidth := paper.width - 40.0;
    var maxHeight := paper.height - 60.0;
    var capped := if scaled > maxWidth * 0.8 then maxWidth * 0.8 else scaled;
    if capped > maxHeight * 0.6 then maxHeight * 0.6 else capped
  }

  lemma CapSizeMonotone(paper: Paper, a: real, b: real)
    requires a <= b
    ensures CapSize(paper, a) <= CapSize(paper, b)
  {
  }

  /** Larger design sizes never give smaller print sizes. */
  lemma ConvertSizeMonotone(paper: Paper, sf: real, a: real, b: real)
    requires sf >= 0.0
    requires a <= b
    ensures ConvertSize(paper, sf, a) <= ConvertSize(paper, sf, b)
  {
    ScaleMonotone(a, b, PX_TO_MM, sf);
    var sa, sb := a * PX_TO_MM * sf, b * PX_TO_MM * sf;
    CapSizeMonotone(paper, sa, sb);
    Round2Monotone(CapSize(paper, sa), CapSize(paper, sb));
  }

  /** `convertFontSize`: pixels to points under the user scale, rounded and
      clamped into the readable range [6, 18]; inside the range it is only
      rounded. */
  function ConvertFontSize(scaleFactor: real, fontSize: real): (r: real)
    ensures 6.0 <= r <= 18.0
    ensures var exact := Round2(fontSize * PX_TO_PT * scaleFactor);
      6.0 <= exact <= 18.0 ==> r == exact
  {
    var scaled := fontSize * PX_TO_PT * scaleFactor;
    Max(6.0, Min(18.0, Round2(scaled)))
  }

  /** The default 12 px font becomes 9 pt at scale 1, and font sizes keep
      their order under a non-negative scale. */
  lemma ConvertFontSizeMonotone(sf: real, a: real, b: real)
    requires sf >= 0.0
    requires a <= b
    ensures ConvertFontSize(sf, a) <= ConvertFontSize(sf, b)
    ensures sf == 1.0 ==> ConvertFontSize(sf, 12.0) == 9.0
  {
    ScaleMonotone(a, b, PX_TO_PT, sf);
    Round2Monotone(a * PX_TO_PT * sf, b * PX_TO_PT * sf);
    if sf == 1.0 {
      Round2Hundredths(900);
      assert 12.0 * PX_TO_PT * sf == 900 as real / 100.0;
    }
  }
}

=== FILE: wrappers.dfy ===
/** Optional values and fallible results, used wherever the converter
    returns `null` or throws. */
module Wrappers {

  datatype Option<+T> = None | Some(value: T)

  datatype Result<+T, +E> = Success(value: T) | Failure(error: E)
}
